=== FILE: README.md ===
# Priority heap, attack/repair simulator and lpad, in Dafny

This project models three pieces of a small C++ code base.

- **The array-backed binary heap** (`priority-heap/heap.hpp`). A `Heap` keeps
  `PriorityContainer`s (a content with an integer priority) in a `contents`
  array. The array has capacity `size`, and its first `occupied` slots hold
  the elements. `push` doubles the storage when it is full, places the new
  element at the first open slot and percolates it up. `pop` returns the
  root, moves the last element to the root and percolates it down. `incKey`
  and `decKey` change one priority in place and then re-percolate. The
  ordering `moreTop` is either `MinHeap` (lower priority on top) or
  `MaxHeap` (higher priority on top). Equal priorities go to a tie-break
  function `onTie`. Here the ordering is a value: a variant plus a
  tie-break predicate. The heap is a Dafny class over an `array`, with the
  heap property and the element multiset as invariants.
- **The event-driven simulator** (`priority-heap/simulation.cpp`). An
  attacker deploys and executes attacks on `numComputers` computers. An IDS
  may detect attacks that cross the midpoint boundary and notify a sysadmin,
  who schedules repairs. Events wait in a `MinHeap` keyed by time; on equal
  times the larger action code goes first. `fetch` checks the end
  conditions in a fixed order and then pops the earliest event, and
  `process` dispatches it to one of five handlers. The random draws are
  inputs: the simulator holds a sequence of percent draws and a sequence of
  node draws and consumes them in order.
- **`lpad`** (`graph-generator/command.cpp`). It left-pads, or left-truncates,
  a NUL-terminated string to a fixed width in a fresh buffer.

Modules:
- `Wrappers`: `Option` and `Result`.
- `HeapOrder`: containers, orderings, index arithmetic, and the heap
  property on sequences with its lemmas.
- `PriorityHeap`: the `Heap` class.
- `HeapScenarios`: the heap test program, a drain loop, and the incKey and
  decKey findings.
- `Simulation`: events and the `Simulator` class.
- `Command`: `lpad`.

The main results:
- `push`, `pop`, both percolations and the corrected `incKey` and `decKey`
  keep the heap property, and each states exactly how the element multiset
  changes. The `incKey` and `decKey` as written keep it for a `MaxHeap` with
  `val >= 0` and a `MinHeap` with `val <= 0`; "## Findings" gives a
  `MinHeap` input on which each breaks it.
- A popped element is top, so a drain of a `MaxHeap` comes out in
  non-increasing priority.
- `fetch` raises the end conditions in the source's order.
- Each handler's new state and queued events are stated exactly.
- Over any run:
  - infection is never forgotten;
  - with `attackProbability` 0 no computer is ever infected;
  - with `detectProbability` 0 the sysadmin never moves its fix slot;
  - every attack comes from outside the network.
- `lpad` fills its buffer exactly as `LeftPad` describes, which is
  idempotent and recovers the text.

Facts about the simulator's code that the model keeps:
- `notify` queues `NOTIFY` at the current time. Only its trace line prints
  `time + 100`.
- The first `DEPLOY_ATTACK` is queued at time 1000: the clock starts at 0
  and `deploy_attack` adds 1000.
- `NOTIFY` is the step that advances `nextFixTime` and queues
  `DEPLOY_REPAIR` there. `DEPLOY_REPAIR` then queues `EXECUTE_REPAIR` 100
  after the current time.
- The clock can move backwards: `DEPLOY_REPAIR` may be queued before the
  current time, since `nextFixTime` does not follow the clock.
- A percent draw lies in [0, 100], 100 included.
- `deploy_attack` passes its own source on, and the only source ever used
  is -1. So every attack comes from outside, and the check
  `computers[source]` never decides anything.

## Model

| member | source | states |
|---|---|---|
| HeapOrder.Equal | priority-heap/heap.hpp:12 | `==` holds exactly when neither `<` nor `>` does |
| HeapOrder.Less | priority-heap/heap.hpp:13 | `<` is strict: no container is less than itself |
| HeapOrder.Greater | priority-heap/heap.hpp:14 | `>` is `<` with the arguments swapped |
| HeapOrder.ComparisonsIgnoreContent | priority-heap/heap.hpp:12-14 | `==`, `<` and `>` do not depend on the contents, only on the priorities |
| HeapOrder.NotEqual | priority-heap/heap.hpp:16 | `!=` holds exactly when one priority is strictly below or above the other |
| HeapOrder.LessEq | priority-heap/heap.hpp:17 | `<=` is the negation of `>` and compares priorities only |
| HeapOrder.GreaterEq | priority-heap/heap.hpp:18 | `>=` is the negation of `<`, and is `<=` with the arguments swapped |
| HeapOrder.Ordering.MoreTop | priority-heap/heap.hpp:89-113 | equal priorities defer to onTie; otherwise MinHeap puts the strictly lower priority on top and MaxHeap the strictly higher |
| HeapOrder.StrictWeakFromTieBreak | priority-heap/heap.hpp:89-113 | if onTie is, within each priority level, asymmetric with a transitive complement (a strict weak order), moreTop is asymmetric and "not moreTop" is transitive (a strict weak order) |
| HeapOrder.MoreTopTransitive | priority-heap/heap.hpp:89-113 | under a strict weak order, moreTop is transitive |
| HeapOrder.ChildIndex | priority-heap/heap.hpp:230-237 | a child index lies after its parent and has it as its parent; the left child is the odd one |
| HeapOrder.LeftChildIndex | priority-heap/heap.hpp:220-223 | the left child lies after the node, has it as its parent, and is odd |
| HeapOrder.RightChildIndex | priority-heap/heap.hpp:225-228 | the right child lies after the node, has it as its parent, is even, and directly follows the left child |
| HeapOrder.ParentIndex | priority-heap/heap.hpp:239-243 | -1 for the root; otherwise a smaller index of which the given index is the left or the right child |
| HeapOrder.Swap | priority-heap/heap.hpp:175-177 | exchanging two positions moves exactly those two elements and keeps the multiset |
| HeapOrder.SwapPrefix | priority-heap/heap.hpp:207-208 | two place calls on the storage swap the two positions within the occupied prefix |
| HeapOrder.PercolateUpStep | priority-heap/heap.hpp:206-209 | swapping a node that is moreTop than its parent moves the only violation up to the parent |
| HeapOrder.PercolateUpDone | priority-heap/heap.hpp:202-211 | stopping at the root, or at a node not moreTop than its parent, leaves a heap |
| HeapOrder.PercolateDownStep | priority-heap/heap.hpp:173-178 | swapping a node with its winning child, when the node is not moreTop than that child, moves the only violation down to the child's slot |
| HeapOrder.PercolateDownDone | priority-heap/heap.hpp:174 | stopping when the node is moreTop than its winning child leaves a heap |
| HeapOrder.PercolateDownLeaf | priority-heap/heap.hpp:180-182 | stopping at a leaf (NO_CHILD) leaves a heap |
| HeapOrder.RaisedKeepsExceptUp | priority-heap/heap.hpp:73-76 | replacing a node of a heap by an element at least as top leaves only the link to its parent to repair |
| HeapOrder.LoweredKeepsExceptDown | priority-heap/heap.hpp:78-81 | replacing a node of a heap by an element not moreTop than it leaves only the links to its children to repair |
| HeapOrder.LastToRoot | priority-heap/heap.hpp:158-161 | after the last element overwrites the root and occupied drops, only the root's links are broken, and the elements are those that followed the root |
| HeapOrder.RootIsTop | priority-heap/heap.hpp:152-163 | in a heap, no element is moreTop than the root (induction on the path to the root) |
| HeapOrder.RootIsTopOfRest | priority-heap/heap.hpp:152-163 | removing the root of a heap leaves exactly the later elements, none of them moreTop than the root |
| PriorityHeap.Heap.constructor | priority-heap/heap.hpp:117-121 | Heap(initialSize): empty, with capacity initialSize and a valid heap |
| PriorityHeap.Heap.Default | priority-heap/heap.hpp:124 | Heap(): empty, with capacity 20 |
| PriorityHeap.Heap.HasNode | priority-heap/heap.hpp:215-218 | an index holds a node only if it is within the storage; every index outside [0, occupied) holds none |
| PriorityHeap.Heap.LastIndex | priority-heap/heap.hpp:33 | on a non-empty heap the last node, with no node after it; -1, which holds no node, on an empty one |
| PriorityHeap.Heap.OpenIndex | priority-heap/heap.hpp:34 | the slot right after the last node, which holds no node |
| PriorityHeap.Heap.Grab | priority-heap/heap.hpp:251-255 | succeeds exactly on occupied indexes, returning a held element; NO_ELEMENT otherwise |
| PriorityHeap.Heap.Place | priority-heap/heap.hpp:246-249 | overwrites one slot and changes no other |
| PriorityHeap.Heap.Compare | priority-heap/heap.hpp:42-46 | succeeds exactly when both indexes are occupied, with moreTop of the two elements; NO_ELEMENT otherwise |
| PriorityHeap.Heap.ReturnTopper | priority-heap/heap.hpp:185-198 | NO_CHILD exactly when neither index is occupied; otherwise an occupied one of the two that the other is not moreTop than |
| PriorityHeap.Heap.PercolateUp | priority-heap/heap.hpp:200-212 | keeps the elements; turns a heap broken only at the node's parent link into a heap; moves nothing at the root or when the node is not moreTop than its parent |
| PriorityHeap.Heap.PercolateDown | priority-heap/heap.hpp:167-183 | keeps the elements; turns a heap broken only below the node into a heap; moves nothing at a leaf, nor when the node is moreTop than its winning child |
| PriorityHeap.Heap.Grow | priority-heap/heap.hpp:135-144 | a full storage becomes a fresh one of twice the occupied count, with the occupied prefix copied unchanged |
| PriorityHeap.Heap.Push | priority-heap/heap.hpp:133-149 | keeps the heap property; the elements gain exactly x; occupied rises by one; the capacity doubles exactly when the heap was full |
| PriorityHeap.Heap.PushValue | priority-heap/heap.hpp:68-70 | as Push, for the container built from the content and the priority |
| PriorityHeap.Heap.RemoveRoot | priority-heap/heap.hpp:158-161 | on two or more elements: keeps the heap property, drops occupied by one, and leaves exactly the elements after the root |
| PriorityHeap.Heap.Pop | priority-heap/heap.hpp:151-163 | NO_ELEMENT on an empty heap; otherwise returns the old root, removes exactly it, and nothing left is moreTop than it (so no higher priority remains on a MaxHeap, no lower one on a MinHeap) |
| PriorityHeap.Heap.Rekeyed | priority-heap/heap.hpp:74 | the element at the index, with the same content and the new priority |
| PriorityHeap.Heap.IncKeyAsWritten | priority-heap/heap.hpp:73-76 | the element at the index has its priority raised by val; the heap property is guaranteed afterwards for MaxHeap with val >= 0 or MinHeap with val <= 0; at the root nothing else moves |
| PriorityHeap.Heap.DecKeyAsWritten | priority-heap/heap.hpp:78-81 | the element at the index has its priority lowered by val; the heap property is guaranteed afterwards for MaxHeap with val >= 0 or MinHeap with val <= 0; at a leaf nothing else moves |
| PriorityHeap.Heap.SetPriority | priority-heap/heap.hpp:73-81 | gives the element at the index a new priority and keeps the heap property for either variant and any change |
| PriorityHeap.Heap.IncKey | priority-heap/heap.hpp:73-76 | corrected incKey: raises the priority by val and keeps the heap property whatever the variant and the sign of val |
| PriorityHeap.Heap.DecKey | priority-heap/heap.hpp:78-81 | corrected decKey: lowers the priority by val and keeps the heap property whatever the variant and the sign of val |
| PriorityHeap.Heap.IsEmpty | priority-heap/heap.hpp:83 | true exactly when the heap holds no element |
| HeapScenarios.IntTiebreaker | priority-heap/heap_test.cpp:4-6 | no content beats itself, and of two different contents exactly one beats the other |
| HeapScenarios.IntTiebreakerOrders | priority-heap/heap_test.cpp:4-6 | the test's tie-break (larger content on top) is a valid tie-break for either variant |
| HeapScenarios.TwoElementHeap | priority-heap/heap.hpp:201-211 | a two-element heap has its moreTop element at the root |
| HeapScenarios.DrainStep | priority-heap/heap.hpp:152-163 | appending what a pop returns keeps the drained sequence in pop order, ahead of everything still held |
| HeapScenarios.PopOrderPriorities | priority-heap/heap.hpp:89-113 | a sequence in pop order has non-increasing priorities on a MaxHeap and non-decreasing ones on a MinHeap |
| HeapScenarios.DrainAll | priority-heap/heap_test.cpp:18-21 | popping until empty yields every element once; nothing later is moreTop than anything earlier; MaxHeap priorities do not increase and MinHeap priorities do not decrease |
| HeapScenarios.TieScenario | priority-heap/heap_test.cpp:14-21 | on a MaxHeap, (100, 99) and (98, 99) pop with content 100 first |
| HeapScenarios.BuildTestHeap | priority-heap/heap_test.cpp:9-15 | the test's 102 pushes give a valid MaxHeap of 102 elements |
| HeapScenarios.HeapTest | priority-heap/heap_test.cpp:8-21 | after decKey(50, 10000), the test's 102 pops come out in non-increasing priority; the content order within a tie is not stated here (TieScenario covers the tie the test prints) |
| HeapScenarios.SmallMinHeap | priority-heap/heap.hpp:133-149 | pushing priorities 1 and 5 onto a MinHeap gives the heap [(0,1), (0,5)] |
| HeapScenarios.IncKeyCounterexample | priority-heap/heap.hpp:73-76 | incKey(0, 10) on that MinHeap leaves a child moreTop than the root |
| HeapScenarios.DecKeyCounterexample | priority-heap/heap.hpp:78-81 | decKey(1, 10) on that MinHeap leaves a child moreTop than the root |
| HeapScenarios.IncKeyCorrected | priority-heap/heap.hpp:73-76 | the corrected incKey on the same heap keeps it a heap: the next pop yields priority 5 |
| HeapScenarios.DecKeyCorrected | priority-heap/heap.hpp:78-81 | the corrected decKey on the same heap keeps it a heap: the next pop yields priority -5 |
| Simulation.Tiebreaker | priority-heap/simulation.cpp:20-22 | two events with the same action never beat each other; EXECUTE_ATTACK beats every other action and NOTIFY none |
| Simulation.EventOrder | priority-heap/simulation.cpp:20-22 | a valid tie-break; an event is on top exactly when it is earlier, or equally timed with a larger action code |
| Simulation.Count | priority-heap/simulation.cpp:40-46 | the number of infected flags is at most the number of computers |
| Simulation.CountZero | priority-heap/simulation.cpp:40-46 | the count is 0 exactly when every flag is false |
| Simulation.CountUpdate | priority-heap/simulation.cpp:190-191 | setting one flag changes the count by what was removed and what was put in its place |
| Simulation.FirstOther | priority-heap/simulation.cpp:52-55 | the first draw from the cursor on that differs from the computer, with every draw before it equal to the computer; none exactly when all remaining draws equal it |
| Simulation.DetectionDraws | priority-heap/simulation.cpp:159-168 | detectedByIDS consumes no draw exactly for an inside attack that stays on one side of the midpoint, and one otherwise |
| Simulation.OutsideAttacksAdd | priority-heap/simulation.cpp:120-138 | queueing an event keeps every attack from outside exactly when the event is not an inside attack |
| Simulation.OnlyAttacksAdd | priority-heap/simulation.cpp:109-157 | queueing an event keeps the queue attack-only exactly when the event is an attack |
| Simulation.Simulator.constructor | priority-heap/simulation.cpp:74-84 | every computer clean, clock 0, no infection, and exactly one outside DEPLOY_ATTACK queued at 1000 against the first node draw |
| Simulation.Simulator.ComputersInfected | priority-heap/simulation.cpp:40-46 | the number of true flags |
| Simulation.Simulator.Attempt | priority-heap/simulation.cpp:51 | consumes one percent draw and succeeds exactly when it is below prob: never for prob <= 0, always above 100 |
| Simulation.Simulator.RandomComputer | priority-heap/simulation.cpp:52-55 | returns the first node draw that differs from the computer and consumes the draws up to it |
| Simulation.Simulator.DetectedByIDS | priority-heap/simulation.cpp:159-168 | detected exactly when a draw is due and succeeds; consumes that draw only; never with detectProbability <= 0 |
| Simulation.Simulator.PreCheck | priority-heap/simulation.cpp:170-173 | the first check that holds wins: QUEUE_EMPTY exactly when the queue is empty; otherwise NETWORK_CONQUERED exactly when more than (numComputers+1)/2 are infected; otherwise NETWORK_DEFENDED exactly when none is infected after an infection; no end condition exactly when none of these holds |
| Simulation.Simulator.CheckEnd | priority-heap/simulation.cpp:170-173 | the checks made in the source's order give PreCheck: empty queue first, then conquered, then defended |
| Simulation.Simulator.PopNext | priority-heap/simulation.cpp:175-179 | pops the earliest event, removes exactly it, sets the clock to its time, and times out past maxTime; nothing left in the queue is on top of the popped event |
| Simulation.Simulator.ConquestAtThreeOfFour | priority-heap/simulation.cpp:171-172 | with four computers and events queued, conquest is reported at three infected and not at two |
| Simulation.Simulator.Fetch | priority-heap/simulation.cpp:170-180 | an end condition leaves everything unchanged; otherwise as PopNext, so nothing left is on top of the fetched event; a timeout means the clock is past maxTime; invariants kept |
| Simulation.Simulator.Schedule | priority-heap/simulation.cpp:115 | the queue gains exactly the event at the given time |
| Simulation.Simulator.Notify | priority-heap/simulation.cpp:109-118 | queues NOTIFY(source) at the current time, nothing for source -1 |
| Simulation.Simulator.DeployAttack | priority-heap/simulation.cpp:120-128 | queues DEPLOY_ATTACK(source, t) at time + 1000, where t is the first node draw differing from source |
| Simulation.Simulator.ExecuteAttack | priority-heap/simulation.cpp:130-138 | queues EXECUTE_ATTACK(source, target) at time + 100 |
| Simulation.Simulator.DeployRepair | priority-heap/simulation.cpp:140-148 | nextFixTime rises by exactly 10000 and DEPLOY_REPAIR(target) is queued at the new value |
| Simulation.Simulator.ExecuteRepair | priority-heap/simulation.cpp:150-157 | queues EXECUTE_REPAIR(target) at time + 100 |
| Simulation.Simulator.CanLaunch | priority-heap/simulation.cpp:183 | a launch from outside is always allowed; from inside, exactly while the launching computer itself is infected, so with none infected only outside launches are allowed |
| Simulation.Simulator.ProcessDeployAttack | priority-heap/simulation.cpp:182-187 | from a source the attacker can launch from, queues the attack at +100 and the next deployment at +1000; otherwise changes nothing |
| Simulation.Simulator.AttemptInfection | priority-heap/simulation.cpp:189-192 | a successful attack draw infects the target and sets hasInfected; otherwise only the draw is consumed |
| Simulation.Simulator.NotifyEnds | priority-heap/simulation.cpp:193-196 | queues the NOTIFY events of both ends, none for source -1 |
| Simulation.Simulator.ReportDetection | priority-heap/simulation.cpp:193-196 | on detection both ends are notified, otherwise nothing is queued; with detectProbability <= 0 nothing ever is |
| Simulation.Simulator.ProcessExecuteAttack | priority-heap/simulation.cpp:188-197 | the infection and the detection are independent draws; exact new state and queued events |
| Simulation.Simulator.ProcessDeployRepair | priority-heap/simulation.cpp:199-201 | queues EXECUTE_REPAIR(target) at time + 100 |
| Simulation.Simulator.ProcessExecuteRepair | priority-heap/simulation.cpp:203-205 | only the target's flag changes, to false; the count drops by one if it was infected |
| Simulation.Simulator.ProcessNotify | priority-heap/simulation.cpp:207-209 | nextFixTime rises by 10000 and DEPLOY_REPAIR(source) is queued at it |
| Simulation.Simulator.Process | priority-heap/simulation.cpp:211-229 | for each action, exactly its handler's new state and queued events; keeps the invariants; infection is never forgotten; nextFixTime moves only on NOTIFY, by 10000 |
| Simulation.Simulator.ProcessAttackEvent | priority-heap/simulation.cpp:213-218 | EXECUTE_ATTACK and DEPLOY_ATTACK have exactly their handlers' effects; the invariants are kept |
| Simulation.Simulator.ProcessDefenceEvent | priority-heap/simulation.cpp:219-227 | EXECUTE_REPAIR, DEPLOY_REPAIR and NOTIFY have exactly their handlers' effects; the invariants are kept |
| Simulation.Simulator.Step | priority-heap/simulation.cpp:89-92 | ends exactly with fetch's end condition when one holds, and an end other than a timeout holds of the final state; a timeout means the clock is past maxTime; a processed event was the queue's root, fetched with no end condition; invariants kept; hasInfected monotone; nextFixTime never decreases and, with detectProbability 0, never moves |
| Simulation.Simulator.Run | priority-heap/simulation.cpp:86-106 | the same facts over any number of steps; with fuel left, an end condition holding at the start is the result; an end other than a timeout holds of the final state; a defended network has an infection and no infected computer; a conquered one more than half infected |
| Simulation.Simulate | priority-heap/simulation.cpp:74-106 | with attackProbability 0 nothing is ever infected; with detectProbability 0 the sysadmin's fix slot never moves, and it never moves earlier; the defender wins only with every computer clean after an infection, the attacker only with more than half infected, QUEUE_EMPTY only with nothing queued, conquest and defence only with events still queued, and a timeout only with the clock past maxTime |
| Command.CLength | graph-generator/command.cpp:10 | the position of the first NUL |
| Command.LeftPad | graph-generator/command.cpp:11-17 | exactly length characters: padding then the whole text when it fits, otherwise the text's last length characters |
| Command.LeftPadIdempotent | graph-generator/command.cpp:11-17 | padding a padded text to the same width changes nothing |
| Command.LeftPadRecovers | graph-generator/command.cpp:11-17 | when the text fits, the result is the padding followed by the text, so dropping the padding gives the text back |
| Command.Lpad | graph-generator/command.cpp:8-20 | a fresh buffer of length + 1 characters: LeftPad of the text up to its NUL, then a NUL at index length |

## Left out

- Printing and the trace lines of every scheduling helper, `run`'s messages,
  `main` and its argument parsing, and `getRandomSeed`'s read of
  `/dev/urandom`: these are I/O.
- The Mersenne Twister and its distributions: draws are inputs consumed in
  order, percent draws in [0, 100] and node draws in [0, numComputers).
- `run`'s exception plumbing: end conditions are values (`Result`,
  `StepOutcome`, `RunResult`).
- Simulation.Simulator.Run: runs for at most `fuel` steps. It also stops
  with `DrawsExhausted` when the given draws do not cover the next event.
  The source loops until an end condition; neither stop exists there.
- Simulation.Simulator.constructor, Simulation.Simulate and
  Simulation.Simulator.PreCheck: require `numComputers > 0`. With no
  computers the source's `randomComputer` draws from the empty range
  [0, -1], which is undefined behaviour.
- Simulation.Simulator.Run and Simulation.Simulate: that a run stops at the
  first state in which an end condition holds is stated step by step
  (`Step` ends with that condition whenever one holds) and for the state
  `Run` starts in. No history of the states a run passes through is kept,
  so this is not restated over the whole run.
- Simulation.Simulator.RandomComputer: requires a later node draw that
  differs from the computer. The source retries forever when none comes,
  which with one computer is every time.
- Simulation.Simulator.constructor: takes the sysadmin's first
  `nextFixTime` as a parameter, since the source never initialises it.
  Event fields the source leaves uninitialised are -1 and are never read.
- Simulation.Simulator.Step: states invariants and monotone facts rather
  than the exact new state, since each handler states its exact effect. No
  monotone clock is claimed, because `DEPLOY_REPAIR` can be scheduled
  before the current time.
- Integer widths: integers are unbounded. In the C++ `time` is an `int`,
  and `maxTime` (8640000000) is beyond its range, so `TIMED_OUT` cannot fire
  there. The model times out past maxTime. The narrowing of a `long long`
  priority to `int` is not modelled either.
- PriorityHeap.Heap.constructor: requires `initialSize > 0`. Doubling an
  empty storage leaves it empty, so a push onto `Heap(0)` writes out of
  bounds. Only `Heap()` (capacity 20) is used.
- PriorityHeap.Heap.IncKeyAsWritten: requires an occupied index. The
  source does not bounds-check it.
- PriorityHeap.Heap.DecKeyAsWritten: requires an occupied index. The
  source does not bounds-check it.
- The heap constructors require the tie-break to be, within each priority
  level, asymmetric with a transitive complement (a strict weak order).
  Without that, moreTop is no
  order and no heap property can be maintained. Both tie-breaks in the
  code base meet it.
- The destructor and `delete[]`: memory is managed by Dafny.
- `priority-heap/heap.h`, `priority-heap/heap.cpp` and `priority-heap/pqueue.h`
  are earlier drafts that do not compile. They are not part of this model.
  `pqueue.hpp` is not part of this model either: the event queue is the
  `heap.hpp` MinHeap with the simulator's tie-break.
- Command.Lpad: requires `length >= 0` and a NUL in the text. A negative
  length makes the source write before its buffer, and `length + 1`
  overflowing `int` is not modelled.
- The error code OVERRIDE is declared (`HeapError.Override`) but never
  raised, as in the source. The `getChild`, `getParent` and `getNode`
  declarations have no definitions and are not modelled.

## Findings

| source | as written | input that shows it | evidently intended | confidence | as-written member | corrected member |
|---|---|---|---|---|---|---|
| priority-heap/heap.hpp:73-76 | incKey always percolates up after adding val | MinHeap holding priorities 1 and 5 (root 1); incKey(0, 10) leaves the root at 11 above a child at 5 | the heap property holds after any key change, so on a MinHeap a raised key must percolate down | not executed | PriorityHeap.Heap.IncKeyAsWritten, HeapScenarios.IncKeyCounterexample | PriorityHeap.Heap.IncKey, HeapScenarios.IncKeyCorrected |
| priority-heap/heap.hpp:78-81 | decKey always percolates down after subtracting val | MinHeap holding priorities 1 and 5 (root 1); decKey(1, 10) leaves the leaf at -5 below the root at 1 | the heap property holds after any key change, so on a MinHeap a lowered key must percolate up | not executed | PriorityHeap.Heap.DecKeyAsWritten, HeapScenarios.DecKeyCounterexample | PriorityHeap.Heap.DecKey, HeapScenarios.DecKeyCorrected |

=== FILE: command.dfy ===
/** lpad of graph-generator/command.cpp: left-pad, or left-truncate, a C
    string to a fixed width in a freshly allocated, NUL-terminated buffer. */
module Command {

  /** strlen: the position of the first NUL of a C string. */
  function CLength(s: seq<char>): (n: nat)
    requires '\0' in s
    ensures n < |s| && s[n] == '\0'
    ensures forall i :: 0 <= i < n ==> s[i] != '\0'
  {
    if s[0] == '\0' then 0 else 1 + CLength(s[1..])
  }

  /** What lpad writes at each of the first length positions: the text
      right-aligned, the positions before it filled with padWith, and the
      positions before the window dropped when the text is too long. */
  function LeftPad(text: seq<char>, length: nat, padWith: char): (r: seq<char>)
    ensures |r| == length
    ensures |text| <= length ==> forall i :: 0 <= i < length - |text| ==> r[i] == padWith
    ensures |text| <= length ==> r[length - |text|..] == text
    ensures |text| >= length ==> r == text[|text| - length..]
  {
    seq(length, i requires 0 <= i < length =>
      if i >= length - |text| then text[i - (length - |text|)] else padWith)
  }

  /** Padding a text that already has the width leaves it unchanged, so
      padding twice to the same width is padding once. */
  lemma {:induction false} LeftPadIdempotent(text: seq<char>, length: nat, padWith: char)
    ensures LeftPad(LeftPad(text, length, padWith), length, padWith) == LeftPad(text, length, padWith)
  {
    var once := LeftPad(text, length, padWith);
    assert once[|once| - length..] == once;
  }

  /** Padding to a width never shorter than the text and then dropping the
      padding gives the text back. */
  lemma LeftPadRecovers(text: seq<char>, length: nat, padWith: char)
    requires |text| <= length
    ensures LeftPad(text, length, padWith)[length - |text|..] == text
    ensures LeftPad(text, length, padWith) == seq(length - |text|, _ => padWith) + text
  {
    var r := LeftPad(text, length, padWith);
    var p := seq(length - |text|, _ => padWith);
    assert r == r[..length - |text|] + r[length - |text|..];
    assert r[..length - |text|] == p;
  }

  /** lpad(text, length, padWith): a new buffer of length + 1 characters
      holding LeftPad of the C string text, then a NUL at index length. */
  method Lpad(text: array<char>, length: int, padWith: char) returns (padded: array<char>)
    requires '\0' in text[..]
    requires length >= 0
    ensures fresh(padded) && padded.Length == length + 1
    ensures padded[..length] == LeftPad(text[..CLength(text[..])], length, padWith)
    ensures padded[length] == '\0'
  {
    padded := new char[length + 1];
    var textLength := CLength(text[..]);
    ghost var want := LeftPad(text[..textLength], length, padWith);
    for i := 0 to length
      invariant forall j :: 0 <= j < i ==> padded[j] == want[j]
    {
      if i >= length - textLength {
        padded[i] := text[i - (length - textLength)];
      } else {
        padded[i] := padWith;
      }
    }
    padded[length] := '\0';
  }
}

=== FILE: heap.dfy ===
/** The array-backed binary heap of priority-heap/heap.hpp: a `contents`
    array whose `size` is its capacity and whose first `occupied` slots hold
    the elements. The ordering (MinHeap or MaxHeap, plus the tie-break) is
    fixed at construction. */
module PriorityHeap {
  import opened Wrappers
  import opened HeapOrder

  /** The heap's error codes (OVERRIDE is declared by the source but never
      raised). */
  datatype HeapError = Override | NoElement | NoChild

  class Heap<T(0,!new)> {
    var contents: array<PriorityContainer<T>>
    var size: int
    var occupied: int
    const order: Ordering<T>

    /** The storage is consistent and the ordering can be maintained; the heap
        property itself is not part of this. */
    ghost predicate Shaped()
      reads this
    {
      && size == contents.Length
      && 0 < size
      && 0 <= occupied <= size
      && order.IsStrictWeakOrder()
    }

    /** The class invariant: no occupied node is moreTop than its parent. */
    ghost predicate Valid()
      reads this, contents
    {
      Shaped() && IsHeap(order, contents[..occupied])
    }

    /** The elements the heap holds: the occupied prefix, as a multiset. */
    ghost function Elements(): multiset<PriorityContainer<T>>
      reads this, contents
      requires 0 <= occupied <= contents.Length
    {
      multiset(contents[..occupied])
    }

    /** Heap(initialSize). A capacity of 0 is excluded: doubling an empty
        storage would leave it at 0. */
    constructor (order: Ordering<T>, initialSize: int)
      requires order.TieBreakOrders()
      requires initialSize > 0
      ensures Valid() && fresh(contents)
      ensures this.order == order && size == initialSize && occupied == 0 && Elements() == multiset{}
    {
      StrictWeakFromTieBreak(order);
      this.order := order;
      contents := new PriorityContainer<T>[initialSize];
      size := initialSize;
      occupied := 0;
    }

    /** Heap(): the default capacity is 20. */
    constructor Default(order: Ordering<T>)
      requires order.TieBreakOrders()
      ensures Valid() && fresh(contents)
      ensures this.order == order && size == 20 && occupied == 0 && Elements() == multiset{}
    {
      StrictWeakFromTieBreak(order);
      this.order := order;
      contents := new PriorityContainer<T>[20];
      size := 20;
      occupied := 0;
    }

    /** getLastIndex: the last node, or -1 when the heap is empty. */
    function LastIndex(): (i: int)
      reads this, contents
      requires 0 <= occupied <= contents.Length
      ensures occupied > 0 ==> HasNode(i) && !HasNode(i + 1)
      ensures occupied == 0 ==> i == -1 && !HasNode(i)
    {
      occupied - 1
    }

    /** getOpenIndex: the first slot past the last node, where push places
        a new element. */
    function OpenIndex(): (i: int)
      reads this, contents
      requires 0 <= occupied <= contents.Length
      ensures !HasNode(i) && i == LastIndex() + 1
    {
      occupied
    }

    /** hasNode: whether index holds one of the elements. Such an index is
        always within the storage. */
    function HasNode(index: int): (r: bool)
      reads this, contents
      requires 0 <= occupied <= contents.Length
      ensures r ==> 0 <= index < contents.Length
      ensures !r ==> index < 0 || occupied <= index
      ensures index < 0 || occupied <= index ==> !r
    {
      0 <= index < occupied
    }

    /** grab: the element at an occupied index, NO_ELEMENT elsewhere. */
    function Grab(index: int): (r: Result<PriorityContainer<T>, HeapError>)
      reads this, contents
      requires 0 <= occupied <= contents.Length
      ensures r.Success? <==> 0 <= index < occupied
      ensures r.Success? ==> r.value == contents[index] && r.value in Elements()
      ensures r.Failure? ==> r.error == NoElement
    {
      if !HasNode(index) then Failure(NoElement) else Success(contents[index])
    }

    /** place: overwrite one slot of the storage. */
    method Place(x: PriorityContainer<T>, index: int)
      requires 0 <= index < contents.Length
      modifies contents
      ensures contents[..] == old(contents[..])[index := x]
    {
      contents[index] := x;
    }

    /** compare: is the element at index1 moreTop than the one at index2?
        NO_ELEMENT when either index is unoccupied. */
    function Compare(index1: int, index2: int): (r: Result<bool, HeapError>)
      reads this, contents
      requires 0 <= occupied <= contents.Length
      ensures r.Success? <==> 0 <= index1 < occupied && 0 <= index2 < occupied
      ensures r.Success? ==> (r.value <==> order.MoreTop(contents[index1], contents[index2]))
      ensures r.Failure? ==> r.error == NoElement
    {
      match (Grab(index1), Grab(index2))
      case (Success(node1), Success(node2)) => Success(order.MoreTop(node1, node2))
      case _ => Failure(NoElement)
    }

    /** returnTopper: of two candidate children, the one that exists, or the
        moreTop of the two; NO_CHILD when neither exists. */
    function ReturnTopper(index1: int, index2: int): (r: Result<int, HeapError>)
      reads this, contents
      requires Shaped()
      ensures r.Failure? <==> !(0 <= index1 < occupied) && !(0 <= index2 < occupied)
      ensures r.Failure? ==> r.error == NoChild
      ensures r.Success? ==> (r.value == index1 || r.value == index2) && 0 <= r.value < occupied
      ensures r.Success? && 0 <= index1 < occupied ==> !order.MoreTop(contents[index1], contents[r.value])
      ensures r.Success? && 0 <= index2 < occupied ==> !order.MoreTop(contents[index2], contents[r.value])
    {
      if !HasNode(index1) && !HasNode(index2) then
        Failure(NoChild)
      else if !HasNode(index1) then
        Success(index2)
      else if !HasNode(index2) then
        Success(index1)
      else
        var node1 := contents[index1];
        var node2 := contents[index2];
        Success(if order.MoreTop(node1, node2) then index1 else index2)
    }

    /** percolateUp: swap the node with its parent while it is moreTop than
        the parent. It restores the heap property when that link is the only
        one broken; it moves nothing from the root or from a node that is not
        moreTop than its parent. */
    method PercolateUp(index: int)
      requires Shaped() && 0 <= index < occupied
      modifies contents
      ensures HeapExceptUp(order, old(contents[..occupied]), index) ==> IsHeap(order, contents[..occupied])
      ensures Elements() == old(Elements())
      ensures (index == 0 || !order.MoreTop(old(contents[index]), old(contents[ParentIndex(index)])))
                ==> contents[..] == old(contents[..])
      decreases index
    {
      var parentIndex := ParentIndex(index);
      if HasNode(parentIndex) {
        var currentNode := Grab(index).value;
        var parentNode := Grab(parentIndex).value;
        if order.MoreTop(currentNode, parentNode) {
          ghost var s, full := contents[..occupied], contents[..];
          if HeapExceptUp(order, s, index) {
            PercolateUpStep(order, s, index);
          }
          Place(currentNode, parentIndex);
          Place(parentNode, index);
          SwapPrefix(full, contents[..], occupied, index, parentIndex);
          PercolateUp(parentIndex);
        } else if HeapExceptUp(order, contents[..occupied], index) {
          PercolateUpDone(order, contents[..occupied], index);
        }
      } else if HeapExceptUp(order, contents[..occupied], index) {
        PercolateUpDone(order, contents[..occupied], index);
      }
    }

    /** percolateDown: swap the node with its winning child while it is not
        moreTop than that child; a leaf (NO_CHILD) ends the walk. It restores
        the heap property when the links below the node are the only ones
        broken, and moves nothing from a leaf. */
    method PercolateDown(index: int)
      requires Shaped() && 0 <= index < occupied
      modifies contents
      ensures HeapExceptDown(order, old(contents[..occupied]), index) ==> IsHeap(order, contents[..occupied])
      ensures Elements() == old(Elements())
      ensures !HasNode(LeftChildIndex(index)) ==> contents[..] == old(contents[..])
      ensures var t := old(ReturnTopper(LeftChildIndex(index), RightChildIndex(index)));
                t.Success? && old(order.MoreTop(contents[index], contents[t.value])) ==> contents[..] == old(contents[..])
      decreases occupied - index
    {
      var leftChildIndex := LeftChildIndex(index);
      var rightChildIndex := RightChildIndex(index);
      var topper := ReturnTopper(leftChildIndex, rightChildIndex);
      ghost var s := contents[..occupied];
      if topper.Failure? {
        if HeapExceptDown(order, s, index) {
          PercolateDownLeaf(order, s, index);
        }
        return;
      }
      var compareAgainst := topper.value;
      var indexOnTop := Compare(index, compareAgainst);
      if !indexOnTop.value {
        if HeapExceptDown(order, s, index) {
          PercolateDownStep(order, s, index, compareAgainst);
        }
        ghost var full := contents[..];
        var tempNode := Grab(compareAgainst).value;
        Place(Grab(index).value, compareAgainst);
        Place(tempNode, index);
        SwapPrefix(full, contents[..], occupied, index, compareAgainst);
        PercolateDown(compareAgainst);
      } else if HeapExceptDown(order, s, index) {
        PercolateDownDone(order, s, index, compareAgainst);
      }
    }

    /** The growth step of push: a full storage is replaced by one of twice
        the occupied count, with the occupied prefix copied over. */
    method Grow()
      requires Valid() && occupied >= size
      modifies this
      ensures Valid() && fresh(contents)
      ensures occupied == old(occupied) && size == 2 * old(occupied)
      ensures contents[..occupied] == old(contents[..occupied])
    {
      var newSize := occupied * 2;
      var newContents := new PriorityContainer<T>[newSize];
      for i := 0 to occupied
        invariant contents == old(contents) && occupied == old(occupied)
        invariant newContents[..i] == contents[..i]
      {
        newContents[i] := contents[i];
      }
      assert newContents[..occupied] == contents[..occupied];
      contents := newContents;
      size := newSize;
    }

    /** push: grow when full, place the element at the first open slot and
        percolate it up. */
    method Push(x: PriorityContainer<T>)
      requires Valid()
      modifies this, contents
      ensures Valid()
      ensures Elements() == old(Elements()) + multiset{x}
      ensures occupied == old(occupied) + 1
      ensures size == if old(occupied) >= old(size) then 2 * old(occupied) else old(size)
      ensures old(occupied) < old(size) ==> contents == old(contents)
      ensures old(occupied) >= old(size) ==> fresh(contents)
    {
      if occupied >= size {
        Grow();
      }
      ghost var s := contents[..occupied];
      var open := OpenIndex();
      Place(x, open);
      occupied := occupied + 1;
      assert contents[..occupied] == s + [x];
      var last := LastIndex();
      assert last == open;
      assert HeapExceptUp(order, contents[..occupied], last);
      PercolateUp(last);
    }

    /** push(content, priority): wrap the pair and push it. */
    method PushValue(content: T, priority: int)
      requires Valid()
      modifies this, contents
      ensures Valid()
      ensures Elements() == old(Elements()) + multiset{PriorityContainer(content, priority)}
      ensures occupied == old(occupied) + 1
      ensures size == if old(occupied) >= old(size) then 2 * old(occupied) else old(size)
      ensures old(occupied) < old(size) ==> contents == old(contents)
      ensures old(occupied) >= old(size) ==> fresh(contents)
    {
      Push(PriorityContainer(content, priority));
    }

    /** The removal step of pop on a heap of two or more: the last element
        overwrites the root, the occupied count drops by one, and that element
        is percolated down. What remains is everything but the old root. */
    method RemoveRoot()
      requires Valid() && occupied >= 2
      modifies this, contents
      ensures Valid() && contents == old(contents) && size == old(size)
      ensures occupied == old(occupied) - 1
      ensures Elements() == multiset(old(contents[..occupied])[1..])
    {
      var lastNode := Grab(LastIndex()).value;
      occupied := occupied - 1;
      ghost var full := contents[..];
      Place(lastNode, 0);
      LastToRoot(order, full, contents[..], occupied + 1);
      assert contents[..occupied] == contents[..][..occupied];
      assert HeapExceptDown(order, contents[..occupied], 0);
      PercolateDown(0);
    }

    /** pop: NO_ELEMENT on an empty heap; otherwise the root, with the last
        element moved to the root and percolated down. The returned element
        is top: nothing left in the heap is moreTop than it. */
    method Pop() returns (r: Result<PriorityContainer<T>, HeapError>)
      requires Valid()
      modifies this, contents
      ensures Valid() && contents == old(contents) && size == old(size)
      ensures old(occupied) == 0 ==> r == Failure(NoElement) && occupied == 0
      ensures old(occupied) > 0 ==>
                && r.Success? && r.value == old(contents[0]) && r.value in old(Elements())
                && occupied == old(occupied) - 1
                && Elements() == old(Elements()) - multiset{r.value}
      ensures r.Success? ==> forall y :: y in Elements() ==> !order.MoreTop(y, r.value)
      ensures r.Success? && order.variant == MaxHeap ==> forall y :: y in Elements() ==> y.priority <= r.value.priority
      ensures r.Success? && order.variant == MinHeap ==> forall y :: y in Elements() ==> y.priority >= r.value.priority
    {
      var root := Grab(0);
      if root.Failure? {
        return Failure(root.error);
      }
      var toReturn := root.value;
      ghost var s := contents[..occupied];
      ghost var rest := multiset(s[1..]);
      RootIsTopOfRest(order, s);
      assert s == [toReturn] + s[1..];
      assert Elements() - multiset{toReturn} == rest;
      var last := LastIndex();
      if last == 0 {
        occupied := occupied - 1;
        assert contents[..occupied] == s[1..];
      } else {
        RemoveRoot();
      }
      assert Elements() == rest;
      r := Success(toReturn);
    }

    /** The element at an occupied index with its priority replaced. */
    function Rekeyed(index: int, priority: int): (x: PriorityContainer<T>)
      reads this, contents
      requires 0 <= index < occupied <= contents.Length
      ensures x.content == contents[index].content && x.priority == priority
    {
      contents[index].(priority := priority)
    }

    /** incKey as written: raise the priority at index by val and percolate
        up, whatever the variant. This is guaranteed to repair the heap when
        the new element is at least as top as the old one (a MaxHeap with
        val >= 0, a MinHeap with val <= 0); at the root nothing moves at all. */
    method IncKeyAsWritten(index: int, val: int)
      requires Valid() && 0 <= index < occupied
      modifies contents
      ensures Shaped()
      ensures Elements() == old(Elements()) - multiset{old(contents[index])} + multiset{old(Rekeyed(index, contents[index].priority + val))}
      ensures (order.variant == MaxHeap && val >= 0) || (order.variant == MinHeap && val <= 0) ==> Valid()
      ensures index == 0 ==> contents[..] == old(contents[..])[0 := old(Rekeyed(0, contents[0].priority + val))]
    {
      var node := Grab(index).value;
      var changed := Rekeyed(index, node.priority + val);
      ghost var s := contents[..occupied];
      Place(changed, index);
      assert contents[..occupied] == s[index := changed];
      if (order.variant == MaxHeap && val >= 0) || (order.variant == MinHeap && val <= 0) {
        RaisedKeepsExceptUp(order, s, index, changed);
      }
      PercolateUp(index);
    }

    /** decKey as written: lower the priority at index by val and percolate
        down, whatever the variant. This is guaranteed to repair the heap when
        the new element is not moreTop than the old one (a MaxHeap with
        val >= 0, a MinHeap with val <= 0); at a leaf nothing moves at all. */
    method DecKeyAsWritten(index: int, val: int)
      requires Valid() && 0 <= index < occupied
      modifies contents
      ensures Shaped()
      ensures Elements() == old(Elements()) - multiset{old(contents[index])} + multiset{old(Rekeyed(index, contents[index].priority - val))}
      ensures (order.variant == MaxHeap && val >= 0) || (order.variant == MinHeap && val <= 0) ==> Valid()
      ensures !HasNode(LeftChildIndex(index)) ==>
                contents[..] == old(contents[..])[index := old(Rekeyed(index, contents[index].priority - val))]
    {
      var node := Grab(index).value;
      var changed := Rekeyed(index, node.priority - val);
      ghost var s := contents[..occupied];
      Place(changed, index);
      assert contents[..occupied] == s[index := changed];
      if (order.variant == MaxHeap && val >= 0) || (order.variant == MinHeap && val <= 0) {
        LoweredKeepsExceptDown(order, s, index, changed);
      }
      PercolateDown(index);
    }

    /** The repair incKey and decKey evidently intend: give the element at
        index a new priority, then percolate up if that made it moreTop than
        before and down otherwise. The heap property holds afterwards for
        either variant and any change. */
    method SetPriority(index: int, priority: int)
      requires Valid() && 0 <= index < occupied
      modifies contents
      ensures Valid()
      ensures Elements() == old(Elements()) - multiset{old(contents[index])} + multiset{old(Rekeyed(index, priority))}
    {
      var node := Grab(index).value;
      var changed := Rekeyed(index, priority);
      ghost var s := contents[..occupied];
      Place(changed, index);
      assert contents[..occupied] == s[index := changed];
      if order.MoreTop(changed, node) {
        RaisedKeepsExceptUp(order, s, index, changed);
        PercolateUp(index);
      } else {
        LoweredKeepsExceptDown(order, s, index, changed);
        PercolateDown(index);
      }
    }

    /** incKey, corrected: add val to the priority at index and restore the
        heap property in whichever direction the change calls for. */
    method IncKey(index: int, val: int)
      requires Valid() && 0 <= index < occupied
      modifies contents
      ensures Valid()
      ensures Elements() == old(Elements()) - multiset{old(contents[index])} + multiset{old(Rekeyed(index, contents[index].priority + val))}
    {
      ghost var held, node := Elements(), contents[index];
      ghost var changed := Rekeyed(index, contents[index].priority + val);
      SetPriority(index, contents[index].priority + val);
      assert Elements() == held - multiset{node} + multiset{changed};
    }

    /** decKey, corrected: subtract val from the priority at index and restore
        the heap property in whichever direction the change calls for. */
    method DecKey(index: int, val: int)
      requires Valid() && 0 <= index < occupied
      modifies contents
      ensures Valid()
      ensures Elements() == old(Elements()) - multiset{old(contents[index])} + multiset{old(Rekeyed(index, contents[index].priority - val))}
    {
      ghost var held, node := Elements(), contents[index];
      ghost var changed := Rekeyed(index, contents[index].priority - val);
      SetPriority(index, contents[index].priority - val);
      assert Elements() == held - multiset{node} + multiset{changed};
    }

    /** isEmpty: no elements are held. */
    function IsEmpty(): (r: bool)
      reads this, contents
      requires 0 <= occupied <= contents.Length
      ensures r <==> Elements() == multiset{}
    {
      assert occupied > 0 ==> contents[0] in Elements();
      occupied == 0
    }
  }
}

=== FILE: heap_order.dfy ===
/** Priority containers, the min-heap / max-heap ordering with its tie-break,
    the array index arithmetic of a binary heap, and the heap property stated
    over the occupied prefix of the storage (priority-heap/heap.hpp). */
module HeapOrder {

  /** A payload paired with its priority. */
  datatype PriorityContainer<T> = PriorityContainer(content: T, priority: int)

  // The six comparison operators of PriorityContainer: all of them look at
  // the priority only, never at the content.

  /** operator==: exactly one of ==, < and > holds. */
  function Equal<T>(x: PriorityContainer<T>, y: PriorityContainer<T>): (r: bool)
    ensures r <==> !Less(x, y) && !Greater(x, y)
  {
    x.priority == y.priority
  }

  /** operator<: strict, so no container is less than itself. */
  function Less<T>(x: PriorityContainer<T>, y: PriorityContainer<T>): (r: bool)
    ensures r ==> x != y
  {
    x.priority < y.priority
  }

  /** operator>: the converse of operator<. */
  function Greater<T>(x: PriorityContainer<T>, y: PriorityContainer<T>): (r: bool)
    ensures r <==> Less(y, x)
  {
    x.priority > y.priority
  }

  /** The comparisons ignore the contents: replacing either content changes
      none of their answers. */
  lemma ComparisonsIgnoreContent<T>(x: PriorityContainer<T>, y: PriorityContainer<T>, c: T, d: T)
    ensures Equal(x, y) <==> Equal(x.(content := c), y.(content := d))
    ensures Less(x, y) <==> Less(x.(content := c), y.(content := d))
    ensures Greater(x, y) <==> Greater(x.(content := c), y.(content := d))
  {
  }

  function NotEqual<T>(x: PriorityContainer<T>, y: PriorityContainer<T>): (r: bool)
    ensures r <==> Less(x, y) || Greater(x, y)
  {
    !Equal(x, y)
  }

  function LessEq<T>(x: PriorityContainer<T>, y: PriorityContainer<T>): (r: bool)
    ensures r <==> !Greater(x, y)
    ensures r <==> x.priority <= y.priority
  {
    Equal(x, y) || Less(x, y)
  }

  function GreaterEq<T>(x: PriorityContainer<T>, y: PriorityContainer<T>): (r: bool)
    ensures r <==> !Less(x, y)
    ensures r <==> LessEq(y, x)
  {
    Equal(x, y) || Greater(x, y)
  }

  /** Which end of the priority scale sits on top: MinHeap puts the lowest
      priority at the root, MaxHeap the highest. */
  datatype Variant = MinHeap | MaxHeap

  /** The ordering of a heap: its variant and the tie-break consulted when
      two containers have equal priority. The tie-break receives both
      contents and both priorities, as the source's function pointer does. */
  datatype Ordering<!T(!new)> = Ordering(variant: Variant, onTie: (T, int, T, int) -> bool)
  {
    /** moreTop: should x1 sit above x2? */
    function MoreTop(x1: PriorityContainer<T>, x2: PriorityContainer<T>): (r: bool)
      ensures x1.priority == x2.priority ==>
                (r <==> onTie(x1.content, x1.priority, x2.content, x2.priority))
      ensures x1.priority != x2.priority && variant == MinHeap ==> (r <==> x1.priority < x2.priority)
      ensures x1.priority != x2.priority && variant == MaxHeap ==> (r <==> x1.priority > x2.priority)
    {
      if Equal(x1, x2) then
        onTie(x1.content, x1.priority, x2.content, x2.priority)
      else if variant == MinHeap then
        Less(x1, x2)
      else
        Greater(x1, x2)
    }

    /** The tie-break is a strict weak order on the contents of each priority
        level: asymmetric, and its complement is transitive. */
    ghost predicate TieBreakOrders() {
      && (forall c1, c2, p :: onTie(c1, p, c2, p) ==> !onTie(c2, p, c1, p))
      && (forall c1, c2, c3, p :: !onTie(c1, p, c2, p) && !onTie(c2, p, c3, p) ==> !onTie(c1, p, c3, p))
    }

    /** "Not moreTop" is transitive through x, y, z. Kept as a predicate of
        its own so that proofs apply it to the triples they name. */
    ghost predicate NotTopChains(x: PriorityContainer<T>, y: PriorityContainer<T>, z: PriorityContainer<T>) {
      !MoreTop(x, y) && !MoreTop(y, z) ==> !MoreTop(x, z)
    }

    /** moreTop is a strict weak order on containers. This is what the heap
        property needs for percolation to restore it. */
    ghost predicate IsStrictWeakOrder() {
      && (forall x, y :: MoreTop(x, y) ==> !MoreTop(y, x))
      && (forall x, y, z :: NotTopChains(x, y, z))
    }
  }

  /** A tie-break that orders each priority level makes moreTop, which first
      compares priorities, a strict weak order. */
  lemma StrictWeakFromTieBreak<T(!new)>(ord: Ordering<T>)
    requires ord.TieBreakOrders()
    ensures ord.IsStrictWeakOrder()
  {
    forall x, y | ord.MoreTop(x, y) ensures !ord.MoreTop(y, x) {
      if x.priority == y.priority {
        assert ord.onTie(x.content, x.priority, y.content, x.priority);
      }
    }
    forall x, y, z ensures ord.NotTopChains(x, y, z) {
      if !ord.MoreTop(x, y) && !ord.MoreTop(y, z) && x.priority == y.priority == z.priority {
        assert !ord.onTie(x.content, x.priority, y.content, x.priority);
        assert !ord.onTie(y.content, x.priority, z.content, x.priority);
      }
    }
  }

  /** moreTop is transitive when it is a strict weak order. */
  lemma MoreTopTransitive<T(!new)>(ord: Ordering<T>, x: PriorityContainer<T>, y: PriorityContainer<T>, z: PriorityContainer<T>)
    requires ord.IsStrictWeakOrder()
    requires ord.MoreTop(x, y) && ord.MoreTop(y, z)
    ensures ord.MoreTop(x, z)
  {
    assert !ord.MoreTop(z, y) && ord.NotTopChains(x, z, y);
  }

  // Index arithmetic of the array-backed tree.

  /** getChildIndex: 2i+1 for the left child, 2i+2 for the right one. */
  function ChildIndex(index: int, isLeft: bool): (c: int)
    requires index >= 0
    ensures c > index && ParentIndex(c) == index
    ensures isLeft <==> c % 2 == 1
  {
    if isLeft then 2 * index + 1 else 2 * index + 2
  }

  /** getLeftChildIndex: the odd child, whose parent is index. */
  function LeftChildIndex(index: int): (c: int)
    requires index >= 0
    ensures c > index && ParentIndex(c) == index && c % 2 == 1
  {
    ChildIndex(index, true)
  }

  /** getRightChildIndex: the even child, just after the left one, whose
      parent is index. */
  function RightChildIndex(index: int): (c: int)
    requires index >= 0
    ensures c > index && ParentIndex(c) == index && c % 2 == 0 && c == LeftChildIndex(index) + 1
  {
    ChildIndex(index, false)
  }

  /** getParentIndex: -1 for the root, otherwise (i-1)/2, whose two children
      are i's left child or right child. */
  function ParentIndex(index: int): (p: int)
    requires index >= 0
    ensures index == 0 ==> p == -1
    ensures index > 0 ==> 0 <= p < index && (index == 2 * p + 1 || index == 2 * p + 2)
  {
    if index == 0 then -1 else (index - 1) / 2
  }

  // The heap property over the occupied prefix s of the storage.

  /** No occupied node is moreTop than its parent. */
  ghost predicate IsHeap<T(!new)>(ord: Ordering<T>, s: seq<PriorityContainer<T>>) {
    forall k {:trigger ParentIndex(k)} :: 0 < k < |s| ==> !ord.MoreTop(s[k], s[ParentIndex(k)])
  }

  /** The heap property holds except, possibly, between node i and its parent;
      i's children are not moreTop than i's parent either. This is the state
      percolateUp works on. */
  ghost predicate HeapExceptUp<T(!new)>(ord: Ordering<T>, s: seq<PriorityContainer<T>>, i: int) {
    && 0 <= i < |s|
    && (forall k {:trigger ParentIndex(k)} :: 0 < k < |s| && k != i ==> !ord.MoreTop(s[k], s[ParentIndex(k)]))
    && (0 < i ==> forall k {:trigger ParentIndex(k)} :: 0 < k < |s| && ParentIndex(k) == i ==> !ord.MoreTop(s[k], s[ParentIndex(i)]))
  }

  /** The heap property holds except, possibly, between node i and its
      children; i's children are not moreTop than i's parent. This is the
      state percolateDown works on. */
  ghost predicate HeapExceptDown<T(!new)>(ord: Ordering<T>, s: seq<PriorityContainer<T>>, i: int) {
    && 0 <= i < |s|
    && (forall k {:trigger ParentIndex(k)} :: 0 < k < |s| && ParentIndex(k) != i ==> !ord.MoreTop(s[k], s[ParentIndex(k)]))
    && (0 < i ==> forall k {:trigger ParentIndex(k)} :: 0 < k < |s| && ParentIndex(k) == i ==> !ord.MoreTop(s[k], s[ParentIndex(i)]))
  }

  function Swap<T>(s: seq<T>, i: int, j: int): (r: seq<T>)
    requires 0 <= i < |s| && 0 <= j < |s|
    ensures |r| == |s| && r[i] == s[j] && r[j] == s[i]
    ensures forall k :: 0 <= k < |s| && k != i && k != j ==> r[k] == s[k]
    ensures multiset(r) == multiset(s)
  {
    s[i := s[j]][j := s[i]]
  }

  /** Two writes that exchange slots i and j of the storage exchange them in
      any prefix holding both. */
  lemma SwapPrefix<T>(a: seq<T>, b: seq<T>, n: int, i: int, j: int)
    requires 0 <= i < n <= |a| && 0 <= j < n
    requires b == a[j := a[i]][i := a[j]]
    ensures b[..n] == Swap(a[..n], i, j)
  {
  }

  /** One step of percolateUp: swapping a node that is moreTop than its parent
      moves the only possible violation up to the parent. */
  lemma PercolateUpStep<T(!new)>(ord: Ordering<T>, s: seq<PriorityContainer<T>>, i: int)
    requires ord.IsStrictWeakOrder()
    requires HeapExceptUp(ord, s, i) && i > 0
    requires ord.MoreTop(s[i], s[ParentIndex(i)])
    ensures HeapExceptUp(ord, Swap(s, i, ParentIndex(i)), ParentIndex(i))
  {
    var p := ParentIndex(i);
    var t := Swap(s, i, p);
    forall k | 0 < k < |t| && k != p ensures !ord.MoreTop(t[k], t[ParentIndex(k)]) {
      var pk := ParentIndex(k);
      if k == i {
        assert !ord.MoreTop(s[p], s[i]);
      } else if pk == i {
        assert t[k] == s[k] && t[pk] == s[p];
      } else if pk == p {
        assert t[k] == s[k] && t[pk] == s[i];
        assert !ord.MoreTop(s[k], s[p]) && !ord.MoreTop(s[p], s[i]);
        assert ord.NotTopChains(s[k], s[p], s[i]);
      } else {
        assert t[k] == s[k] && t[pk] == s[pk];
      }
    }
    if 0 < p {
      var pp := ParentIndex(p);
      forall k | 0 < k < |t| && ParentIndex(k) == p ensures !ord.MoreTop(t[k], t[pp]) {
        assert t[pp] == s[pp];
        assert !ord.MoreTop(s[p], s[pp]);
        if k != i {
          assert !ord.MoreTop(s[k], s[p]);
          assert ord.NotTopChains(s[k], s[p], s[pp]);
        }
      }
    }
  }

  /** percolateUp stops at the root or when the node is not moreTop than its
      parent; either way the heap property is restored. */
  lemma PercolateUpDone<T(!new)>(ord: Ordering<T>, s: seq<PriorityContainer<T>>, i: int)
    requires HeapExceptUp(ord, s, i)
    requires i == 0 || !ord.MoreTop(s[i], s[ParentIndex(i)])
    ensures IsHeap(ord, s)
  {
  }

  /** One step of percolateDown: swapping a node with its winning child, which
      it is not moreTop than, moves the only possible violation down to that
      child's old position. */
  lemma PercolateDownStep<T(!new)>(ord: Ordering<T>, s: seq<PriorityContainer<T>>, i: int, c: int)
    requires HeapExceptDown(ord, s, i)
    requires 0 < c < |s| && ParentIndex(c) == i
    requires LeftChildIndex(i) < |s| ==> !ord.MoreTop(s[LeftChildIndex(i)], s[c])
    requires RightChildIndex(i) < |s| ==> !ord.MoreTop(s[RightChildIndex(i)], s[c])
    requires !ord.MoreTop(s[i], s[c])
    ensures HeapExceptDown(ord, Swap(s, i, c), c)
  {
    var t := Swap(s, i, c);
    forall k | 0 < k < |t| && ParentIndex(k) != c ensures !ord.MoreTop(t[k], t[ParentIndex(k)]) {
      var pk := ParentIndex(k);
      if k == c {
      } else if pk == i {
        assert k == LeftChildIndex(i) || k == RightChildIndex(i);
        assert t[k] == s[k] && t[pk] == s[c];
      } else if k == i {
        assert t[k] == s[c] && t[pk] == s[pk];
      } else {
        assert t[k] == s[k] && t[pk] == s[pk];
      }
    }
    forall k | 0 < k < |t| && ParentIndex(k) == c ensures !ord.MoreTop(t[k], t[ParentIndex(c)]) {
      assert t[k] == s[k] && t[i] == s[c];
    }
  }

  /** percolateDown stops at a leaf, or when the node is moreTop than its
      winning child; either way the heap property is restored. */
  lemma PercolateDownDone<T(!new)>(ord: Ordering<T>, s: seq<PriorityContainer<T>>, i: int, c: int)
    requires ord.IsStrictWeakOrder()
    requires HeapExceptDown(ord, s, i)
    requires 0 < c < |s| && ParentIndex(c) == i
    requires LeftChildIndex(i) < |s| ==> !ord.MoreTop(s[LeftChildIndex(i)], s[c])
    requires RightChildIndex(i) < |s| ==> !ord.MoreTop(s[RightChildIndex(i)], s[c])
    requires ord.MoreTop(s[i], s[c])
    ensures IsHeap(ord, s)
  {
    forall k | 0 < k < |s| && ParentIndex(k) == i ensures !ord.MoreTop(s[k], s[i]) {
      assert k == LeftChildIndex(i) || k == RightChildIndex(i);
      assert !ord.MoreTop(s[c], s[i]);
      assert ord.NotTopChains(s[k], s[c], s[i]);
    }
  }

  /** A node without children cannot violate anything below it. */
  lemma PercolateDownLeaf<T(!new)>(ord: Ordering<T>, s: seq<PriorityContainer<T>>, i: int)
    requires HeapExceptDown(ord, s, i)
    requires LeftChildIndex(i) >= |s|
    ensures IsHeap(ord, s)
  {
  }

  /** Replacing node i of a heap by an element at least as top as the old
      one leaves only the link between i and its parent to repair: the state
      percolateUp works on. */
  lemma RaisedKeepsExceptUp<T(!new)>(ord: Ordering<T>, s: seq<PriorityContainer<T>>, i: int, x: PriorityContainer<T>)
    requires ord.IsStrictWeakOrder()
    requires IsHeap(ord, s) && 0 <= i < |s|
    requires !ord.MoreTop(s[i], x)
    ensures HeapExceptUp(ord, s[i := x], i)
  {
    var t := s[i := x];
    forall k | 0 < k < |t| && k != i ensures !ord.MoreTop(t[k], t[ParentIndex(k)]) {
      if ParentIndex(k) == i {
        assert !ord.MoreTop(s[k], s[i]);
        assert ord.NotTopChains(s[k], s[i], x);
      }
    }
    if 0 < i {
      var p := ParentIndex(i);
      forall k | 0 < k < |t| && ParentIndex(k) == i ensures !ord.MoreTop(t[k], t[p]) {
        assert !ord.MoreTop(s[k], s[i]) && !ord.MoreTop(s[i], s[p]);
        assert ord.NotTopChains(s[k], s[i], s[p]);
      }
    }
  }

  /** Replacing node i of a heap by an element that is not moreTop than the
      old one leaves only the links between i and its children to repair:
      the state percolateDown works on. */
  lemma LoweredKeepsExceptDown<T(!new)>(ord: Ordering<T>, s: seq<PriorityContainer<T>>, i: int, x: PriorityContainer<T>)
    requires ord.IsStrictWeakOrder()
    requires IsHeap(ord, s) && 0 <= i < |s|
    requires !ord.MoreTop(x, s[i])
    ensures HeapExceptDown(ord, s[i := x], i)
  {
    var t := s[i := x];
    forall k | 0 < k < |t| && ParentIndex(k) != i ensures !ord.MoreTop(t[k], t[ParentIndex(k)]) {
      if k == i {
        assert !ord.MoreTop(s[i], s[ParentIndex(i)]);
        assert ord.NotTopChains(x, s[i], s[ParentIndex(i)]);
      }
    }
    if 0 < i {
      var p := ParentIndex(i);
      forall k | 0 < k < |t| && ParentIndex(k) == i ensures !ord.MoreTop(t[k], t[p]) {
        assert !ord.MoreTop(s[k], s[i]) && !ord.MoreTop(s[i], s[p]);
        assert ord.NotTopChains(s[k], s[i], s[p]);
      }
    }
  }

  /** pop's rearrangement of a storage a whose first n slots form a heap:
      once the last element overwrites the root and the count drops to n-1,
      only the root may violate the heap property, and the elements are
      those that followed the root. */
  lemma LastToRoot<T(!new)>(ord: Ordering<T>, a: seq<PriorityContainer<T>>, b: seq<PriorityContainer<T>>, n: int)
    requires 2 <= n <= |a| && IsHeap(ord, a[..n])
    requires b == a[0 := a[n - 1]]
    ensures HeapExceptDown(ord, b[..n - 1], 0)
    ensures multiset(b[..n - 1]) == multiset(a[..n][1..])
  {
    assert a[..n][1..] == a[1..n - 1] + [a[n - 1]];
    assert b[..n - 1] == [a[n - 1]] + a[1..n - 1];
  }

  /** The root of a heap is top: no element is moreTop than it. */
  lemma {:induction false} RootIsTop<T(!new)>(ord: Ordering<T>, s: seq<PriorityContainer<T>>, k: int)
    requires ord.IsStrictWeakOrder()
    requires IsHeap(ord, s) && 0 <= k < |s|
    ensures !ord.MoreTop(s[k], s[0])
    decreases k
  {
    if k > 0 {
      var p := ParentIndex(k);
      RootIsTop(ord, s, p);
      assert !ord.MoreTop(s[k], s[p]);
      assert ord.NotTopChains(s[k], s[p], s[0]);
    }
  }

  /** Nothing that follows the root of a heap is moreTop than the root, so
      neither is anything left once the root is popped. */
  lemma RootIsTopOfRest<T(!new)>(ord: Ordering<T>, s: seq<PriorityContainer<T>>)
    requires ord.IsStrictWeakOrder()
    requires IsHeap(ord, s) && |s| > 0
    ensures multiset(s) - multiset{s[0]} == multiset(s[1..])
    ensures forall y :: y in multiset(s[1..]) ==> !ord.MoreTop(y, s[0])
    ensures ord.variant == MaxHeap ==> forall y :: y in multiset(s[1..]) ==> y.priority <= s[0].priority
    ensures ord.variant == MinHeap ==> forall y :: y in multiset(s[1..]) ==> y.priority >= s[0].priority
  {
    assert s == [s[0]] + s[1..];
    forall y | y in multiset(s[1..]) ensures !ord.MoreTop(y, s[0]) {
      var k :| 1 <= k < |s| && s[k] == y;
      RootIsTop(ord, s, k);
    }
  }
}

=== FILE: heap_scenarios.dfy ===
/** Clients of the heap: the integer tie-break and the pushes and pops of
    priority-heap/heap_test.cpp, a drain loop that pops until the heap is
    empty, and the two-element heaps on which the source's incKey and decKey
    leave the heap property broken. */
module HeapScenarios {
  import opened Wrappers
  import opened HeapOrder
  import opened PriorityHeap

  /** heap_test's tie-break: on equal priorities the larger content is on
      top. No content beats itself, and of two different contents exactly one
      beats the other. */
  function IntTiebreaker(x1: int, p1: int, x2: int, p2: int): (r: bool)
    ensures r ==> x1 != x2
    ensures x1 != x2 ==> (r <==> !(x2 > x1))
  {
    x1 > x2
  }

  /** The integer tie-break orders every priority level, so either heap
      variant built on it may be constructed. */
  lemma IntTiebreakerOrders(v: Variant)
    ensures Ordering(v, IntTiebreaker).TieBreakOrders()
  {
  }

  /** Two elements listed with the second not moreTop than the first, where
      a is strictly moreTop than b, are listed as a then b. */
  lemma TwoInOrder<T(!new)>(ord: Ordering<T>, s: seq<PriorityContainer<T>>, a: PriorityContainer<T>, b: PriorityContainer<T>)
    requires |s| == 2 && multiset(s) == multiset{a, b}
    requires !ord.MoreTop(s[1], s[0]) && ord.MoreTop(a, b)
    ensures s == [a, b]
  {
    assert s == [s[0], s[1]];
    assert s[0] in multiset(s);
    assert multiset{s[1]} == multiset(s) - multiset{s[0]};
  }

  /** A two-element heap holds its moreTop element at the root. */
  lemma TwoElementHeap<T(!new)>(ord: Ordering<T>, s: seq<PriorityContainer<T>>, a: PriorityContainer<T>, b: PriorityContainer<T>)
    requires |s| == 2 && multiset(s) == multiset{a, b}
    requires IsHeap(ord, s) && ord.MoreTop(a, b)
    ensures s == [a, b]
  {
    assert ParentIndex(1) == 0;
    TwoInOrder(ord, s, a, b);
  }

  /** Of two elements where a is strictly moreTop than b, the one that
      nothing remaining is moreTop than is a. */
  lemma TopOfTwo<T(!new)>(ord: Ordering<T>, a: PriorityContainer<T>, b: PriorityContainer<T>, r: PriorityContainer<T>, rest: multiset<PriorityContainer<T>>)
    requires r in multiset{a, b} && rest == multiset{a, b} - multiset{r}
    requires forall y :: y in rest ==> !ord.MoreTop(y, r)
    requires ord.MoreTop(a, b)
    ensures r == a
  {

  }

  /** Appending the element a pop returns keeps a drained sequence in pop
      order: nothing later in it, and nothing still held, is moreTop than an
      earlier element. */
  lemma {:induction false} DrainStep<T(!new)>(ord: Ordering<T>, out: seq<PriorityContainer<T>>,
                                              held: multiset<PriorityContainer<T>>, r: PriorityContainer<T>,
                                              rest: multiset<PriorityContainer<T>>)
    requires forall i, j :: 0 <= i < j < |out| ==> !ord.MoreTop(out[j], out[i])
    requires forall i, y :: 0 <= i < |out| && y in held ==> !ord.MoreTop(y, out[i])
    requires r in held && rest == held - multiset{r}
    requires forall y :: y in rest ==> !ord.MoreTop(y, r)
    ensures forall i, j :: 0 <= i < j < |out + [r]| ==> !ord.MoreTop((out + [r])[j], (out + [r])[i])
    ensures forall i, y :: 0 <= i < |out + [r]| && y in rest ==> !ord.MoreTop(y, (out + [r])[i])
  {
    var next := out + [r];
    forall i, j | 0 <= i < j < |next| ensures !ord.MoreTop(next[j], next[i]) {
      if j == |out| {
        assert next[j] == r && next[i] == out[i];
      } else {
        assert next[j] == out[j] && next[i] == out[i];
      }
    }
    forall i, y | 0 <= i < |next| && y in rest ensures !ord.MoreTop(y, next[i]) {
      if i < |out| {
        assert y in held && next[i] == out[i];
      }
    }
  }

  /** A sequence in which nothing later is moreTop than anything earlier has
      non-increasing priorities on a MaxHeap and non-decreasing ones on a
      MinHeap. */
  lemma PopOrderPriorities<T(!new)>(ord: Ordering<T>, out: seq<PriorityContainer<T>>)
    requires forall i, j :: 0 <= i < j < |out| ==> !ord.MoreTop(out[j], out[i])
    ensures ord.variant == MaxHeap ==> forall i, j :: 0 <= i < j < |out| ==> out[i].priority >= out[j].priority
    ensures ord.variant == MinHeap ==> forall i, j :: 0 <= i < j < |out| ==> out[i].priority <= out[j].priority
  {
  }

  /** Pop until the heap is empty, as heap_test's final loop does. The
      elements come out each at least as top as every later one, so a MaxHeap
      yields non-increasing priorities and a MinHeap non-decreasing ones. */
  method DrainAll<T(0,!new)>(h: Heap<T>) returns (out: seq<PriorityContainer<T>>)
    requires h.Valid()
    modifies h, h.contents
    ensures h.Valid() && h.Elements() == multiset{}
    ensures multiset(out) == old(h.Elements())
    ensures forall i, j :: 0 <= i < j < |out| ==> !h.order.MoreTop(out[j], out[i])
    ensures h.order.variant == MaxHeap ==> forall i, j :: 0 <= i < j < |out| ==> out[i].priority >= out[j].priority
    ensures h.order.variant == MinHeap ==> forall i, j :: 0 <= i < j < |out| ==> out[i].priority <= out[j].priority
  {
    out := [];
    while !h.IsEmpty()
      invariant h.Valid() && h.contents == old(h.contents)
      invariant multiset(out) + h.Elements() == old(h.Elements())
      invariant forall i, j :: 0 <= i < j < |out| ==> !h.order.MoreTop(out[j], out[i])
      invariant forall i, y :: 0 <= i < |out| && y in h.Elements() ==> !h.order.MoreTop(y, out[i])
      decreases h.occupied
    {
      ghost var held := h.Elements();
      var r := h.Pop();
      DrainStep(h.order, out, held, r.value, h.Elements());
      assert multiset(out + [r.value]) == multiset(out) + multiset{r.value};
      out := out + [r.value];
    }
    PopOrderPriorities(h.order, out);
  }

  /** heap_test's tie: on a MaxHeap, (content 100, priority 99) and
      (content 98, priority 99) pop with the larger content first. */
  method TieScenario() returns (first: PriorityContainer<int>, second: PriorityContainer<int>)
    ensures first == PriorityContainer(100, 99) && second == PriorityContainer(98, 99)
  {
    var ord := Ordering(MaxHeap, IntTiebreaker);
    IntTiebreakerOrders(MaxHeap);
    var h := new Heap<int>.Default(ord);
    h.PushValue(100, 99);
    h.PushValue(98, 99);
    var out := DrainAll(h);
    assert |multiset(out)| == 2;
    TwoInOrder(ord, out, PriorityContainer(100, 99), PriorityContainer(98, 99));
    first, second := out[0], out[1];
  }

  /** heap_test's pushes: contents 0..99, each with its own value as
      priority, then the two ties at priority 99, on a MaxHeap. */
  method BuildTestHeap() returns (h: Heap<int>)
    ensures fresh(h) && fresh(h.contents)
    ensures h.Valid() && h.order == Ordering(MaxHeap, IntTiebreaker) && h.occupied == 102
  {
    var ord := Ordering(MaxHeap, IntTiebreaker);
    IntTiebreakerOrders(MaxHeap);
    h := new Heap<int>.Default(ord);
    for i := 0 to 100
      invariant fresh(h) && fresh(h.contents)
      invariant h.Valid() && h.order == ord && h.occupied == i
    {
      h.PushValue(i, i);
    }
    h.PushValue(100, 99);
    h.PushValue(98, 99);
  }

  /** heap_test in full: lower the priority at index 50 by 10000 with the
      source's decKey (a MaxHeap with a non-negative change, where it is
      sound) and pop everything: 102 elements in non-increasing priority. */
  method HeapTest() returns (out: seq<PriorityContainer<int>>)
    ensures |out| == 102
    ensures forall i, j :: 0 <= i < j < |out| ==> out[i].priority >= out[j].priority
  {
    var h := BuildTestHeap();
    h.DecKeyAsWritten(50, 10000);
    ghost var held := h.Elements();
    assert |held| == |h.contents[..h.occupied]| == 102;
    out := DrainAll(h);
    assert |multiset(out)| == 102;
  }

  /** The heap [(0,1), (0,5)] of a MinHeap, built by two pushes. */
  method SmallMinHeap() returns (h: Heap<int>)
    ensures fresh(h) && fresh(h.contents) && h.Valid() && h.occupied == 2
    ensures h.order == Ordering(MinHeap, IntTiebreaker)
    ensures h.contents[0] == PriorityContainer(0, 1) && h.contents[1] == PriorityContainer(0, 5)
    ensures h.Elements() == multiset{PriorityContainer(0, 1), PriorityContainer(0, 5)}
  {
    var ord := Ordering(MinHeap, IntTiebreaker);
    IntTiebreakerOrders(MinHeap);
    h := new Heap<int>.Default(ord);
    h.PushValue(0, 1);
    h.PushValue(0, 5);
    ghost var s := h.contents[..h.occupied];
    assert multiset(s) == multiset{PriorityContainer(0, 1), PriorityContainer(0, 5)};
    TwoElementHeap(ord, s, PriorityContainer(0, 1), PriorityContainer(0, 5));
    assert h.contents[0] == s[0] && h.contents[1] == s[1];
  }

  /** The source's incKey on a MinHeap: raising the root of [(0,1), (0,5)]
      by 10 leaves the root at priority 11 above a child of priority 5, which
      is moreTop than it. */
  method IncKeyCounterexample() returns (root: PriorityContainer<int>, child: PriorityContainer<int>)
    ensures root == PriorityContainer(0, 11) && child == PriorityContainer(0, 5)
    ensures Ordering(MinHeap, IntTiebreaker).MoreTop(child, root)
  {
    var h := SmallMinHeap();
    h.IncKeyAsWritten(0, 10);
    root, child := h.contents[0], h.contents[1];
  }

  /** The source's decKey on a MinHeap: lowering the leaf of [(0,1), (0,5)]
      by 10 leaves priority -5 below the root of priority 1, though it is
      moreTop than the root. */
  method DecKeyCounterexample() returns (root: PriorityContainer<int>, child: PriorityContainer<int>)
    ensures root == PriorityContainer(0, 1) && child == PriorityContainer(0, -5)
    ensures Ordering(MinHeap, IntTiebreaker).MoreTop(child, root)
  {
    var h := SmallMinHeap();
    h.DecKeyAsWritten(1, 10);
    root, child := h.contents[0], h.contents[1];
  }

  /** The corrected incKey on the same MinHeap keeps the heap property, so
      the next pop yields the element of priority 5. */
  method IncKeyCorrected() returns (r: Result<PriorityContainer<int>, HeapError>)
    ensures r == Success(PriorityContainer(0, 5))
  {
    var h := SmallMinHeap();
    h.IncKey(0, 10);
    ghost var before := h.Elements();
    assert before == multiset{PriorityContainer(0, 5), PriorityContainer(0, 11)};
    r := h.Pop();
    TopOfTwo(h.order, PriorityContainer(0, 5), PriorityContainer(0, 11), r.value, h.Elements());
  }

  /** The corrected decKey on the same MinHeap keeps the heap property, so
      the next pop yields the element whose priority dropped to -5. */
  method DecKeyCorrected() returns (r: Result<PriorityContainer<int>, HeapError>)
    ensures r == Success(PriorityContainer(0, -5))
  {
    var h := SmallMinHeap();
    h.DecKey(1, 10);
    ghost var before := h.Elements();
    assert before == multiset{PriorityContainer(0, -5), PriorityContainer(0, 1)};
    r := h.Pop();
    TopOfTwo(h.order, PriorityContainer(0, -5), PriorityContainer(0, 1), r.value, h.Elements());
  }
}

=== FILE: simulation.dfy ===
/** The event-driven attack/repair simulator of priority-heap/simulation.cpp.
    Events wait in a MinHeap keyed by time; each step fetches the earliest
    event (after checking the end conditions) and processes it, which may
    flip computers between infected and repaired and schedule follow-up
    events. The random draws are not generated here: the simulator is given
    two sequences of draws and consumes them in order. */
module Simulation {
  import opened Wrappers
  import opened HeapOrder
  import opened PriorityHeap

  // The ACTION codes. Equal-time events pop with the larger code first.
  const EXECUTE_ATTACK := 4
  const DEPLOY_ATTACK := 3
  const EXECUTE_REPAIR := 2
  const DEPLOY_REPAIR := 1
  const NOTIFY := 0

  /** The source -1: an attack launched from outside the network. */
  const NoSource := -1

  /** maxTime: one hundred days in milliseconds. */
  const MaxTime := 8640000000

  /** An event. Fields the source leaves uninitialised (the target of a
      NOTIFY, the source of a repair event) are -1 here; nothing reads them. */
  datatype Event = Event(action: int, source: int, target: int)

  datatype SysAdmin = SysAdmin(nextFixTime: int)

  datatype EndCondition = QueueEmpty | NetworkConquered | NetworkDefended | TimedOut

  /** The result of one fetch-and-process step. OutOfDraws is not a state of
      the source: it reports that the given draws do not cover the event just
      fetched, which is left unprocessed. */
  datatype StepOutcome = Processed(event: Event) | Ended(condition: EndCondition) | OutOfDraws(pending: Event)

  /** The result of a bounded run. */
  datatype RunResult = Finished(condition: EndCondition) | DrawsExhausted | FuelSpent

  /** tiebreaker: on equal times the larger action code goes first. Two
      events with the same code never beat each other, EXECUTE_ATTACK beats
      every other action and NOTIFY beats none. */
  function Tiebreaker(x1: Event, p1: int, x2: Event, p2: int): (r: bool)
    ensures r ==> x1.action != x2.action
    ensures x1.action == EXECUTE_ATTACK && x2.action < EXECUTE_ATTACK ==> r
    ensures x1.action == NOTIFY && x2.action >= NOTIFY ==> !r
  {
    x1.action > x2.action
  }

  /** The order of the event queue: earlier time first, then the larger
      action code. */
  function EventOrder(): (o: Ordering<Event>)
    ensures o.TieBreakOrders()
    ensures forall x, y :: o.MoreTop(x, y) <==>
              x.priority < y.priority || (x.priority == y.priority && x.content.action > y.content.action)
  {
    Ordering(MinHeap, Tiebreaker)
  }

  /** The number of true entries of s, counted from the front. */
  function Count(s: seq<bool>): (r: nat)
    ensures r <= |s|
  {
    if |s| == 0 then 0 else Count(s[..|s| - 1]) + (if s[|s| - 1] then 1 else 0)
  }

  /** Nothing is counted exactly when every entry is false. */
  lemma {:induction false} CountZero(s: seq<bool>)
    ensures Count(s) == 0 <==> forall i :: 0 <= i < |s| ==> !s[i]
  {
    if |s| > 0 {
      CountZero(s[..|s| - 1]);
      assert forall i :: 0 <= i < |s| - 1 ==> s[..|s| - 1][i] == s[i];
    }
  }

  /** Overwriting one entry changes the count by what was removed and what
      was put in its place. */
  lemma {:induction false} CountUpdate(s: seq<bool>, i: int, v: bool)
    requires 0 <= i < |s|
    ensures Count(s[i := v]) == Count(s) - (if s[i] then 1 else 0) + (if v then 1 else 0)
  {
    var t := s[i := v];
    if i < |s| - 1 {
      assert t[..|t| - 1] == s[..|s| - 1][i := v];
      CountUpdate(s[..|s| - 1], i, v);
    } else {
      assert t[..|t| - 1] == s[..|s| - 1];
    }
  }

  /** The position of the first draw from position next on that differs
      from computer, if any: the draw randomComputer settles on after
      discarding the ones equal to it. */
  function FirstOther(draws: seq<int>, next: nat, computer: int): (r: Option<nat>)
    ensures r.Some? ==> next <= r.value < |draws| && draws[r.value] != computer
    ensures r.Some? ==> forall j :: next <= j < r.value ==> draws[j] == computer
    ensures r.None? <==> forall j :: next <= j < |draws| ==> draws[j] == computer
    decreases |draws| - next
  {
    if next >= |draws| then None
    else if draws[next] != computer then Some(next)
    else FirstOther(draws, next + 1, computer)
  }

  /** How many percent draws detectedByIDS consumes: one for an attack from
      outside, one for an attack that crosses the midpoint boundary, and
      none otherwise, since the boundary test short-circuits the draw. */
  function DetectionDraws(numComputers: int, source: int, target: int): (r: nat)
    ensures r <= 1
    ensures r == 0 <==> source != NoSource && (source > numComputers / 2) == (target > numComputers / 2)
  {
    if source == NoSource then 1
    else if (source > numComputers / 2) != (target > numComputers / 2) then 1
    else 0
  }

  predicate IsAttack(e: Event) {
    e.action == DEPLOY_ATTACK || e.action == EXECUTE_ATTACK
  }

  /** The NOTIFY event notify schedules, if any: none for the source -1. */
  function NotifyEvents(node: int, time: int): multiset<PriorityContainer<Event>> {
    if node == NoSource then multiset{} else multiset{PriorityContainer(Event(NOTIFY, node, -1), time)}
  }

  /** The draws the simulator is given: percent draws in [0, 100], node
      draws in [0, numComputers). */
  ghost predicate DrawsInRange(numComputers: int, percentDraws: seq<int>, nodeDraws: seq<int>) {
    && (forall i :: 0 <= i < |percentDraws| ==> 0 <= percentDraws[i] <= 100)
    && (forall i :: 0 <= i < |nodeDraws| ==> 0 <= nodeDraws[i] < numComputers)
  }

  /** Every attack event in m comes from outside the network. */
  ghost predicate OutsideAttacks(m: multiset<PriorityContainer<Event>>) {
    forall x :: x in m && IsAttack(x.content) ==> x.content.source == NoSource
  }

  /** Every event in m is an attack event. */
  ghost predicate OnlyAttacks(m: multiset<PriorityContainer<Event>>) {
    forall x :: x in m ==> IsAttack(x.content)
  }

  /** Adding one event keeps every attack from outside exactly when the
      event added is not an attack from inside. */
  lemma OutsideAttacksAdd(m: multiset<PriorityContainer<Event>>, x: PriorityContainer<Event>)
    ensures OutsideAttacks(m + multiset{x}) <==>
              OutsideAttacks(m) && (IsAttack(x.content) ==> x.content.source == NoSource)
  {
  }

  /** Adding one event keeps only attacks exactly when the event added is
      an attack. */
  lemma OnlyAttacksAdd(m: multiset<PriorityContainer<Event>>, x: PriorityContainer<Event>)
    ensures OnlyAttacks(m + multiset{x}) <==> OnlyAttacks(m) && IsAttack(x.content)
  {
  }

  /** The scalar state of a simulator, for stating what a step changes:
      the clock, the sysadmin's next fix slot, the infection flags and how
      many draws of each kind have been consumed. */
  datatype SimState = SimState(
    time: int, nextFixTime: int, hasInfected: bool, computers: seq<bool>,
    percentNext: nat, nodeNext: nat)

  class Simulator {
    var time: int
    const numComputers: int
    const attackProbability: int
    const detectProbability: int
    const q: Heap<Event>
    var sysadmin: SysAdmin
    const computers: array<bool>
    var hasInfected: bool
    const percentDraws: seq<int>
    const nodeDraws: seq<int>
    var percentNext: nat
    var nodeNext: nat

    /** An event a handler can process: attacks name an outside or existing
        source and an existing target, notifications an existing source,
        repairs an existing target. */
    predicate WellFormed(e: Event) {
      || (IsAttack(e)
          && (e.source == NoSource || 0 <= e.source < numComputers) && 0 <= e.target < numComputers)
      || (e.action == NOTIFY && 0 <= e.source < numComputers)
      || ((e.action == DEPLOY_REPAIR || e.action == EXECUTE_REPAIR) && 0 <= e.target < numComputers)
    }

    /** The class invariant: one flag per computer, a heap ordered by
        EventOrder holding only well-formed events, and draws in range. */
    ghost predicate Valid()
      reads this, q, q.contents, computers
    {
      && 0 < numComputers == computers.Length
      && q.Valid() && q.order == EventOrder()
      && (forall x :: x in q.Elements() ==> WellFormed(x.content))
      && DrawsInRange(numComputers, percentDraws, nodeDraws)
      && percentNext <= |percentDraws| && nodeNext <= |nodeDraws|
    }

    ghost function State(): SimState
      reads this, computers
    {
      SimState(time, sysadmin.nextFixTime, hasInfected, computers[..], percentNext, nodeNext)
    }

    /** With attackProbability 0 no attack succeeds: nothing is or was ever
        infected. */
    ghost predicate Harmless()
      reads this, computers
    {
      attackProbability <= 0 ==> !hasInfected && Count(computers[..]) == 0
    }

    /** Every attack event waiting in the queue comes from outside: the
        attacker keeps deploying from the source it started with. */
    ghost predicate AttacksFromOutside()
      reads this, q, q.contents
      requires q.Valid()
    {
      OutsideAttacks(q.Elements())
    }

    /** With detectProbability 0 nothing is ever detected: only attack events
        are ever queued. */
    ghost predicate QuietDefender()
      reads this, q, q.contents
      requires q.Valid()
    {
      detectProbability <= 0 ==> OnlyAttacks(q.Elements())
    }

    /** Simulator(numComputers, attackProbability, detectProbability): every
        computer clean, the clock at 0, and one outside DEPLOY_ATTACK queued
        at time 1000. The sysadmin's first fix time, which the source leaves
        uninitialised, is given. */
    constructor (numComputers: int, attackProbability: int, detectProbability: int,
                 nextFixTime: int, percentDraws: seq<int>, nodeDraws: seq<int>)
      requires numComputers > 0
      requires DrawsInRange(numComputers, percentDraws, nodeDraws) && |nodeDraws| > 0
      ensures Valid() && fresh(q) && fresh(q.contents) && fresh(computers)
      ensures this.numComputers == numComputers && this.attackProbability == attackProbability
      ensures this.detectProbability == detectProbability
      ensures this.percentDraws == percentDraws && this.nodeDraws == nodeDraws
      ensures State() == SimState(0, nextFixTime, false, seq(numComputers, _ => false), 0, 1)
      ensures q.Elements() == multiset{PriorityContainer(Event(DEPLOY_ATTACK, NoSource, nodeDraws[0]), 1000)}
      ensures Harmless() && AttacksFromOutside() && QuietDefender()
    {
      this.numComputers := numComputers;
      this.attackProbability := attackProbability;
      this.detectProbability := detectProbability;
      var flags := new bool[numComputers];
      for i := 0 to numComputers
        invariant forall j :: 0 <= j < i ==> !flags[j]
      {
        flags[i] := false;
      }
      computers := flags;
      q := new Heap<Event>.Default(EventOrder());
      time := 0;
      sysadmin := SysAdmin(nextFixTime);
      hasInfected := false;
      this.percentDraws := percentDraws;
      this.nodeDraws := nodeDraws;
      percentNext := 0;
      nodeNext := 0;
      new;
      assert computers[..] == seq(numComputers, _ => false);
      CountZero(computers[..]);
      DeployAttack(NoSource);
    }

    /** computersInfected: the number of infected computers. */
    method ComputersInfected() returns (infected: int)
      requires computers.Length == numComputers
      ensures infected == Count(computers[..])
    {
      infected := 0;
      for i := 0 to numComputers
        invariant infected == Count(computers[..i])
      {
        assert computers[..i + 1][..i] == computers[..i];
        if computers[i] {
          infected := infected + 1;
        }
      }
      assert computers[..numComputers] == computers[..];
    }

    /** attempt: consume one percent draw; success when it is below prob. */
    method Attempt(prob: int) returns (r: bool)
      requires DrawsInRange(numComputers, percentDraws, nodeDraws) && percentNext < |percentDraws|
      modifies this
      ensures r <==> percentDraws[old(percentNext)] < prob
      ensures prob <= 0 ==> !r
      ensures prob > 100 ==> r
      ensures State() == old(State()).(percentNext := old(percentNext) + 1)
    {
      var draw := percentDraws[percentNext];
      percentNext := percentNext + 1;
      r := draw < prob;
    }

    /** randomComputer: consume node draws until one differs from computer. */
    method RandomComputer(computer: int) returns (r: int)
      requires DrawsInRange(numComputers, percentDraws, nodeDraws)
      requires FirstOther(nodeDraws, nodeNext, computer).Some?
      modifies this
      ensures var k := FirstOther(nodeDraws, old(nodeNext), computer).value;
                r == nodeDraws[k] && State() == old(State()).(nodeNext := k + 1)
      ensures r != computer && 0 <= r < numComputers
      decreases |nodeDraws| - nodeNext
    {
      var randComp := nodeDraws[nodeNext];
      nodeNext := nodeNext + 1;
      if randComp != computer {
        r := randComp;
      } else {
        r := RandomComputer(computer);
      }
    }

    /** detectedByIDS: an outside attack is detected on a successful draw; an
        inside one only if it crosses the midpoint boundary and the draw
        succeeds. */
    method DetectedByIDS(source: int, target: int) returns (r: bool)
      requires DrawsInRange(numComputers, percentDraws, nodeDraws)
      requires percentNext + DetectionDraws(numComputers, source, target) <= |percentDraws|
      modifies this
      ensures var n := DetectionDraws(numComputers, source, target);
                && (r <==> n == 1 && percentDraws[old(percentNext)] < detectProbability)
                && State() == old(State()).(percentNext := old(percentNext) + n)
      ensures detectProbability <= 0 ==> !r
    {
      if source == NoSource {
        r := Attempt(detectProbability);
      } else {
        var sourceSide := source > numComputers / 2;
        var targetSide := target > numComputers / 2;
        var crossesIDS := sourceSide != targetSide;
        if crossesIDS {
          r := Attempt(detectProbability);
        } else {
          r := false;
        }
      }
    }

    /** The end condition fetch raises before popping, if any, in the
        source's order: an empty queue, more than half of the computers
        (rounded up) infected, then no computer infected after an infection. */
    ghost function PreCheck(): (r: Option<EndCondition>)
      reads this, q, q.contents, computers
      requires q.Valid() && numComputers > 0
      ensures r == Some(QueueEmpty) <==> q.Elements() == multiset{}
      ensures r == Some(NetworkConquered) <==>
                q.Elements() != multiset{} && Count(computers[..]) > (numComputers + 1) / 2
      ensures r == Some(NetworkDefended) <==>
                q.Elements() != multiset{} && Count(computers[..]) == 0 && hasInfected
      ensures r != Some(TimedOut)
      ensures r == None <==>
                && q.Elements() != multiset{}
                && Count(computers[..]) <= (numComputers + 1) / 2
                && (Count(computers[..]) > 0 || !hasInfected)
    {
      if q.Elements() == multiset{} then Some(QueueEmpty)
      else if Count(computers[..]) > (numComputers + 1) / 2 then Some(NetworkConquered)
      else if Count(computers[..]) == 0 && hasInfected then Some(NetworkDefended)
      else None
    }

    /** The checks fetch makes before popping, in order: the end condition
        they raise, if any. */
    method CheckEnd() returns (r: Option<EndCondition>)
      requires Valid()
      ensures r == PreCheck()
    {
      if q.IsEmpty() {
        return Some(QueueEmpty);
      }
      var infected := ComputersInfected();
      if infected > (numComputers + 1) / 2 {
        return Some(NetworkConquered);
      }
      infected := ComputersInfected();
      if infected == 0 && hasInfected {
        return Some(NetworkDefended);
      }
      return None;
    }

    /** The rest of fetch: pop the earliest event, move the clock to its time
        and time out past maxTime. The popped event was waiting, so what held
        of every waiting event holds of it. */
    method PopNext() returns (r: Result<Event, EndCondition>)
      requires Valid() && q.Elements() != multiset{}
      modifies this, q, q.contents
      ensures Valid() && q.contents == old(q.contents)
      ensures var x := old(q.contents[0]);
                && x in old(q.Elements())
                && State() == old(State()).(time := x.priority)
                && q.Elements() == old(q.Elements()) - multiset{x}
                && r == (if x.priority > MaxTime then Failure(TimedOut) else Success(x.content))
                && (forall y :: y in q.Elements() ==> y.priority >= x.priority)
                && (forall y :: y in q.Elements() ==> !EventOrder().MoreTop(y, x))
      ensures r.Success? ==> WellFormed(r.value)
      ensures old(AttacksFromOutside()) ==>
                AttacksFromOutside() && (r.Success? && IsAttack(r.value) ==> r.value.source == NoSource)
      ensures old(QuietDefender()) ==>
                QuietDefender() && (r.Success? && detectProbability <= 0 ==> IsAttack(r.value))
    {
      var next := q.Pop();
      time := next.value.priority;
      if time > MaxTime {
        return Failure(TimedOut);
      }
      r := Success(next.value.content);
    }

    /** On a network of four computers with events queued, fetch reports
        NETWORK_CONQUERED at three infected and not at two: more than
        (4 + 1) / 2 == 2 must be infected. */
    lemma ConquestAtThreeOfFour()
      requires q.Valid() && numComputers == 4 && q.Elements() != multiset{}
      ensures Count(computers[..]) == 3 ==> PreCheck() == Some(NetworkConquered)
      ensures Count(computers[..]) == 2 ==> PreCheck() != Some(NetworkConquered)
    {
    }

    /** fetch: the end conditions in order, then pop the earliest event. */
    method Fetch() returns (r: Result<Event, EndCondition>)
      requires Valid()
      modifies this, q, q.contents
      ensures Valid() && q.contents == old(q.contents)
      ensures State() == old(State()).(time := time)
      ensures old(PreCheck()).Some? ==>
                r == Failure(old(PreCheck()).value) && q.Elements() == old(q.Elements()) && State() == old(State())
      ensures old(PreCheck()).None? ==>
                var x := old(q.contents[0]);
                && x in old(q.Elements())
                && State() == old(State()).(time := x.priority)
                && q.Elements() == old(q.Elements()) - multiset{x}
                && r == (if x.priority > MaxTime then Failure(TimedOut) else Success(x.content))
                && (forall y :: y in q.Elements() ==> y.priority >= x.priority)
                && (forall y :: y in q.Elements() ==> !EventOrder().MoreTop(y, x))
      ensures r == Failure(TimedOut) ==> time > MaxTime
      ensures r.Success? ==> WellFormed(r.value)
      ensures old(AttacksFromOutside()) ==>
                AttacksFromOutside() && (r.Success? && IsAttack(r.value) ==> r.value.source == NoSource)
      ensures old(QuietDefender()) ==>
                QuietDefender() && (r.Success? && detectProbability <= 0 ==> IsAttack(r.value))
    {
      var ended := CheckEnd();
      if ended.Some? {
        return Failure(ended.value);
      }
      r := PopNext();
    }

    /** q.push(e, at), the last step of every scheduling operation. */
    method Schedule(e: Event, at: int)
      requires Valid() && WellFormed(e)
      modifies q, q.contents
      ensures Valid() && (q.contents == old(q.contents) || fresh(q.contents))
      ensures q.Elements() == old(q.Elements()) + multiset{PriorityContainer(e, at)}
      ensures AttacksFromOutside() <==> old(AttacksFromOutside()) && (IsAttack(e) ==> e.source == NoSource)
      ensures OnlyAttacks(q.Elements()) <==> OnlyAttacks(old(q.Elements())) && IsAttack(e)
    {
      OutsideAttacksAdd(q.Elements(), PriorityContainer(e, at));
      OnlyAttacksAdd(q.Elements(), PriorityContainer(e, at));
      q.PushValue(e, at);
    }

    /** notify: queue NOTIFY(source) at the current time, unless the source
        is -1. */
    method Notify(source: int)
      requires Valid() && (source == NoSource || 0 <= source < numComputers)
      modifies q, q.contents
      ensures Valid() && (q.contents == old(q.contents) || fresh(q.contents))
      ensures q.Elements() == old(q.Elements()) + NotifyEvents(source, time)
      ensures old(AttacksFromOutside()) ==> AttacksFromOutside()
    {
      if source != NoSource {
        Schedule(Event(NOTIFY, source, -1), time);
      }
    }

    /** deploy_attack: queue DEPLOY_ATTACK(source, t) 1000 after now, for a
        fresh random target t other than source. */
    method DeployAttack(source: int)
      requires Valid() && (source == NoSource || 0 <= source < numComputers)
      requires FirstOther(nodeDraws, nodeNext, source).Some?
      modifies this, q, q.contents
      ensures Valid() && (q.contents == old(q.contents) || fresh(q.contents))
      ensures var k := FirstOther(nodeDraws, old(nodeNext), source).value;
                && q.Elements() == old(q.Elements())
                     + multiset{PriorityContainer(Event(DEPLOY_ATTACK, source, nodeDraws[k]), old(time) + 1000)}
                && State() == old(State()).(nodeNext := k + 1)
      ensures old(AttacksFromOutside()) && source == NoSource ==> AttacksFromOutside()
      ensures old(QuietDefender()) ==> QuietDefender()
    {
      ghost var k := FirstOther(nodeDraws, nodeNext, source).value;
      ghost var queued := q.Elements();
      ghost var deployment := PriorityContainer(Event(DEPLOY_ATTACK, source, nodeDraws[k]), time + 1000);
      var target := RandomComputer(source);
      assert PriorityContainer(Event(DEPLOY_ATTACK, source, target), time + 1000) == deployment;
      Schedule(Event(DEPLOY_ATTACK, source, target), time + 1000);
      assert q.Elements() == queued + multiset{deployment};
    }

    /** execute_attack: queue EXECUTE_ATTACK(source, target) 100 after now. */
    method ExecuteAttack(source: int, target: int)
      requires Valid() && (source == NoSource || 0 <= source < numComputers) && 0 <= target < numComputers
      modifies q, q.contents
      ensures Valid() && (q.contents == old(q.contents) || fresh(q.contents))
      ensures q.Elements() == old(q.Elements()) + multiset{PriorityContainer(Event(EXECUTE_ATTACK, source, target), time + 100)}
      ensures old(AttacksFromOutside()) && source == NoSource ==> AttacksFromOutside()
      ensures old(QuietDefender()) ==> QuietDefender()
    {
      Schedule(Event(EXECUTE_ATTACK, source, target), time + 100);
    }

    /** deploy_repair: the sysadmin's next fix slot moves 10000 later and
        DEPLOY_REPAIR(target) is queued at it, whatever the current time. */
    method DeployRepair(target: int)
      requires Valid() && 0 <= target < numComputers
      modifies this, q, q.contents
      ensures Valid() && (q.contents == old(q.contents) || fresh(q.contents))
      ensures State() == old(State()).(nextFixTime := old(sysadmin.nextFixTime) + 10000)
      ensures q.Elements() == old(q.Elements())
                + multiset{PriorityContainer(Event(DEPLOY_REPAIR, -1, target), old(sysadmin.nextFixTime) + 10000)}
      ensures old(AttacksFromOutside()) ==> AttacksFromOutside()
    {
      sysadmin := sysadmin.(nextFixTime := sysadmin.nextFixTime + 10000);
      Schedule(Event(DEPLOY_REPAIR, -1, target), sysadmin.nextFixTime);
    }

    /** execute_repair: queue EXECUTE_REPAIR(target) 100 after now. */
    method ExecuteRepair(target: int)
      requires Valid() && 0 <= target < numComputers
      modifies q, q.contents
      ensures Valid() && (q.contents == old(q.contents) || fresh(q.contents))
      ensures q.Elements() == old(q.Elements()) + multiset{PriorityContainer(Event(EXECUTE_REPAIR, -1, target), time + 100)}
      ensures old(AttacksFromOutside()) ==> AttacksFromOutside()
    {
      Schedule(Event(EXECUTE_REPAIR, -1, target), time + 100);
    }

    /** Whether an attack may be launched from source: from outside, or from
        a computer the attacker holds. Launching from inside needs an infected
        computer, so with none infected only outside attacks launch. */
    function CanLaunch(source: int): (r: bool)
      reads this, computers
      requires source == NoSource || 0 <= source < computers.Length
      ensures source == NoSource ==> r
      ensures source != NoSource ==> (r <==> computers[source])
      ensures r ==> source == NoSource || Count(computers[..]) > 0
      ensures Count(computers[..]) == 0 ==> (r <==> source == NoSource)
    {
      CountZero(computers[..]);
      assert source != NoSource ==> computers[..][source] == computers[source];
      source == NoSource || computers[source]
    }

    /** processDeployAttack: from a source the attacker can launch from,
        schedule the attack 100 later and the next deployment from the same
        source 1000 later; otherwise nothing. */
    method ProcessDeployAttack(e: Event)
      requires Valid() && WellFormed(e) && e.action == DEPLOY_ATTACK
      requires CanLaunch(e.source) ==> FirstOther(nodeDraws, nodeNext, e.source).Some?
      modifies this, q, q.contents
      ensures Valid() && (q.contents == old(q.contents) || fresh(q.contents))
      ensures old(CanLaunch(e.source)) ==>
                var k := FirstOther(nodeDraws, old(nodeNext), e.source).value;
                && q.Elements() == old(q.Elements())
                     + multiset{PriorityContainer(Event(EXECUTE_ATTACK, e.source, e.target), old(time) + 100)}
                     + multiset{PriorityContainer(Event(DEPLOY_ATTACK, e.source, nodeDraws[k]), old(time) + 1000)}
                && State() == old(State()).(nodeNext := k + 1)
      ensures !old(CanLaunch(e.source)) ==> q.Elements() == old(q.Elements()) && State() == old(State())
      ensures old(AttacksFromOutside()) && e.source == NoSource ==> AttacksFromOutside()
      ensures old(QuietDefender()) ==> QuietDefender()
    {
      if e.source == NoSource || computers[e.source] {
        ghost var start := q.Elements();
        ghost var k := FirstOther(nodeDraws, nodeNext, e.source).value;
        ghost var attack := PriorityContainer(Event(EXECUTE_ATTACK, e.source, e.target), time + 100);
        ghost var next := PriorityContainer(Event(DEPLOY_ATTACK, e.source, nodeDraws[k]), time + 1000);
        ExecuteAttack(e.source, e.target);
        assert q.Elements() == start + multiset{attack};
        assert nodeNext == old(nodeNext) && time == old(time);
        ghost var mid := q.Elements();
        DeployAttack(e.source);
        assert q.Elements() == mid + multiset{next};
        assert q.Elements() == start + multiset{attack} + multiset{next};
      }
    }

    /** The first half of processExecuteAttack: a successful attack draw
        infects the target and records that an infection happened. */
    method AttemptInfection(e: Event) returns (hit: bool)
      requires Valid() && WellFormed(e) && e.action == EXECUTE_ATTACK && percentNext < |percentDraws|
      modifies this, computers
      ensures Valid()
      ensures hit <==> percentDraws[old(percentNext)] < attackProbability
      ensures State() == old(State()).(
                hasInfected := old(hasInfected) || hit,
                computers := if hit then old(computers[..])[e.target := true] else old(computers[..]),
                percentNext := old(percentNext) + 1)
    {
      hit := Attempt(attackProbability);
      if hit {
        hasInfected := true;
        computers[e.target] := true;
      }
    }

    /** Notify both ends of a detected attack, the source first. */
    method NotifyEnds(source: int, target: int)
      requires Valid() && (source == NoSource || 0 <= source < numComputers) && 0 <= target < numComputers
      modifies q, q.contents
      ensures Valid() && (q.contents == old(q.contents) || fresh(q.contents))
      ensures q.Elements() == old(q.Elements()) + NotifyEvents(source, time) + NotifyEvents(target, time)
      ensures old(AttacksFromOutside()) ==> AttacksFromOutside()
    {
      Notify(source);
      Notify(target);
    }

    /** The second half of processExecuteAttack: when the IDS detects the
        attack, both of its ends are notified. */
    method ReportDetection(e: Event) returns (seen: bool)
      requires Valid() && WellFormed(e) && e.action == EXECUTE_ATTACK
      requires percentNext + DetectionDraws(numComputers, e.source, e.target) <= |percentDraws|
      modifies this, q, q.contents
      ensures Valid() && (q.contents == old(q.contents) || fresh(q.contents))
      ensures var n := DetectionDraws(numComputers, e.source, e.target);
                && (seen <==> n == 1 && percentDraws[old(percentNext)] < detectProbability)
                && State() == old(State()).(percentNext := old(percentNext) + n)
      ensures q.Elements() == old(q.Elements())
                + (if seen then NotifyEvents(e.source, time) + NotifyEvents(e.target, time) else multiset{})
      ensures old(AttacksFromOutside()) ==> AttacksFromOutside()
      ensures detectProbability <= 0 ==> q.Elements() == old(q.Elements())
    {
      ghost var queued := q.Elements();
      seen := DetectedByIDS(e.source, e.target);
      ghost var detected := State();
      assert Valid() && q.Elements() == queued;
      assert detectProbability <= 0 ==> !seen;
      if seen {
        NotifyEnds(e.source, e.target);
        assert State() == detected;
        assert q.Elements() == queued + NotifyEvents(e.source, time) + NotifyEvents(e.target, time);
      } else {
        assert q.Elements() == queued;
      }
    }

    /** processExecuteAttack: a successful attack draw infects the target
        and records that an infection happened; independently, a detection
        notifies both ends. */
    method ProcessExecuteAttack(e: Event)
      requires Valid() && WellFormed(e) && e.action == EXECUTE_ATTACK
      requires percentNext + 1 + DetectionDraws(numComputers, e.source, e.target) <= |percentDraws|
      modifies this, q, q.contents, computers
      ensures Valid() && (q.contents == old(q.contents) || fresh(q.contents))
      ensures var hit := percentDraws[old(percentNext)] < attackProbability;
              var n := DetectionDraws(numComputers, e.source, e.target);
              var seen := n == 1 && percentDraws[old(percentNext) + 1] < detectProbability;
                && State() == old(State()).(
                     hasInfected := old(hasInfected) || hit,
                     computers := if hit then old(computers[..])[e.target := true] else old(computers[..]),
                     percentNext := old(percentNext) + 1 + n)
                && q.Elements() == old(q.Elements())
                     + (if seen then NotifyEvents(e.source, old(time)) + NotifyEvents(e.target, old(time)) else multiset{})
      ensures old(AttacksFromOutside()) ==> AttacksFromOutside()
      ensures detectProbability <= 0 ==> q.Elements() == old(q.Elements())
    {
      var hit := AttemptInfection(e);
      var seen := ReportDetection(e);
    }

    /** processDeployRepair: schedule the repair 100 later. */
    method ProcessDeployRepair(e: Event)
      requires Valid() && WellFormed(e) && e.action == DEPLOY_REPAIR
      modifies q, q.contents
      ensures Valid() && (q.contents == old(q.contents) || fresh(q.contents))
      ensures q.Elements() == old(q.Elements()) + multiset{PriorityContainer(Event(EXECUTE_REPAIR, -1, e.target), time + 100)}
      ensures old(AttacksFromOutside()) ==> AttacksFromOutside()
    {
      ExecuteRepair(e.target);
    }

    /** processExecuteRepair: the target is clean again; nothing else
        changes. */
    method ProcessExecuteRepair(e: Event)
      requires Valid() && WellFormed(e) && e.action == EXECUTE_REPAIR
      modifies computers
      ensures Valid()
      ensures State() == old(State()).(computers := old(computers[..])[e.target := false])
      ensures Count(computers[..]) == old(Count(computers[..])) - (if old(computers[e.target]) then 1 else 0)
    {
      CountUpdate(computers[..], e.target, false);
      computers[e.target] := false;
    }

    /** processNotify: the notified computer gets a repair at the sysadmin's
        next fix slot. */
    method ProcessNotify(e: Event)
      requires Valid() && WellFormed(e) && e.action == NOTIFY
      modifies this, q, q.contents
      ensures Valid() && (q.contents == old(q.contents) || fresh(q.contents))
      ensures State() == old(State()).(nextFixTime := old(sysadmin.nextFixTime) + 10000)
      ensures q.Elements() == old(q.Elements())
                + multiset{PriorityContainer(Event(DEPLOY_REPAIR, -1, e.source), sysadmin.nextFixTime)}
      ensures old(AttacksFromOutside()) ==> AttacksFromOutside()
    {
      DeployRepair(e.source);
    }

    /** The draws processing e consumes are available. */
    predicate DrawsSuffice(e: Event)
      reads this, computers
      requires WellFormed(e) && computers.Length == numComputers
    {
      if e.action == EXECUTE_ATTACK then
        percentNext + 1 + DetectionDraws(numComputers, e.source, e.target) <= |percentDraws|
      else if e.action == DEPLOY_ATTACK then
        CanLaunch(e.source) ==> FirstOther(nodeDraws, nodeNext, e.source).Some?
      else
        true
    }

    /** The attack half of process: EXECUTE_ATTACK and DEPLOY_ATTACK go to
        their handlers. */
    method ProcessAttackEvent(e: Event)
      requires Valid() && WellFormed(e) && DrawsSuffice(e)
      requires IsAttack(e)
      modifies this, q, q.contents, computers
      ensures Valid() && (q.contents == old(q.contents) || fresh(q.contents))
      ensures old(hasInfected) ==> hasInfected
      ensures old(Harmless()) ==> Harmless()
      ensures old(AttacksFromOutside()) && e.source == NoSource ==> AttacksFromOutside()
      ensures old(QuietDefender()) ==> QuietDefender()
      ensures e.action == EXECUTE_ATTACK ==>
                var hit := percentDraws[old(percentNext)] < attackProbability;
                var n := DetectionDraws(numComputers, e.source, e.target);
                var seen := n == 1 && percentDraws[old(percentNext) + 1] < detectProbability;
                && State() == old(State()).(
                     hasInfected := old(hasInfected) || hit,
                     computers := if hit then old(computers[..])[e.target := true] else old(computers[..]),
                     percentNext := old(percentNext) + 1 + n)
                && q.Elements() == old(q.Elements())
                     + (if seen then NotifyEvents(e.source, old(time)) + NotifyEvents(e.target, old(time)) else multiset{})
      ensures e.action == DEPLOY_ATTACK && old(CanLaunch(e.source)) ==>
                var k := FirstOther(nodeDraws, old(nodeNext), e.source).value;
                && q.Elements() == old(q.Elements())
                     + multiset{PriorityContainer(Event(EXECUTE_ATTACK, e.source, e.target), old(time) + 100)}
                     + multiset{PriorityContainer(Event(DEPLOY_ATTACK, e.source, nodeDraws[k]), old(time) + 1000)}
                && State() == old(State()).(nodeNext := k + 1)
      ensures e.action == DEPLOY_ATTACK && !old(CanLaunch(e.source)) ==>
                q.Elements() == old(q.Elements()) && State() == old(State())
    {
      if e.action == EXECUTE_ATTACK {
        ProcessExecuteAttack(e);
      } else {
        ProcessDeployAttack(e);
      }
    }

    /** The defence half of process: EXECUTE_REPAIR, DEPLOY_REPAIR and
        NOTIFY go to their handlers. */
    method ProcessDefenceEvent(e: Event)
      requires Valid() && WellFormed(e) && DrawsSuffice(e)
      requires !IsAttack(e)
      modifies this, q, q.contents, computers
      ensures Valid() && (q.contents == old(q.contents) || fresh(q.contents))
      ensures old(hasInfected) ==> hasInfected
      ensures old(Harmless()) ==> Harmless()
      ensures old(AttacksFromOutside()) ==> AttacksFromOutside()
      ensures sysadmin.nextFixTime == old(sysadmin.nextFixTime) + (if e.action == NOTIFY then 10000 else 0)
      ensures e.action == EXECUTE_REPAIR ==>
                && State() == old(State()).(computers := old(computers[..])[e.target := false])
                && q.Elements() == old(q.Elements())
      ensures e.action == DEPLOY_REPAIR ==>
                && State() == old(State())
                && q.Elements() == old(q.Elements()) + multiset{PriorityContainer(Event(EXECUTE_REPAIR, -1, e.target), old(time) + 100)}
      ensures e.action == NOTIFY ==>
                && State() == old(State()).(nextFixTime := old(sysadmin.nextFixTime) + 10000)
                && q.Elements() == old(q.Elements())
                     + multiset{PriorityContainer(Event(DEPLOY_REPAIR, -1, e.source), old(sysadmin.nextFixTime) + 10000)}
    {
      if e.action == EXECUTE_REPAIR {
        ProcessExecuteRepair(e);
      } else if e.action == DEPLOY_REPAIR {
        ProcessDeployRepair(e);
      } else if e.action == NOTIFY {
        ProcessNotify(e);
      }
    }

    /** process: dispatch on the action code. Each action has exactly its
        handler's effect on the state and on the queue. */
    method Process(e: Event)
      requires Valid() && WellFormed(e) && DrawsSuffice(e)
      modifies this, q, q.contents, computers
      ensures Valid() && (q.contents == old(q.contents) || fresh(q.contents))
      ensures old(hasInfected) ==> hasInfected
      ensures sysadmin.nextFixTime == old(sysadmin.nextFixTime) + (if e.action == NOTIFY then 10000 else 0)
      ensures old(Harmless()) ==> Harmless()
      ensures old(AttacksFromOutside()) && (IsAttack(e) ==> e.source == NoSource) ==> AttacksFromOutside()
      ensures old(QuietDefender()) && (detectProbability <= 0 ==> IsAttack(e)) ==> QuietDefender()
      ensures e.action == EXECUTE_ATTACK ==>
                var hit := percentDraws[old(percentNext)] < attackProbability;
                var n := DetectionDraws(numComputers, e.source, e.target);
                var seen := n == 1 && percentDraws[old(percentNext) + 1] < detectProbability;
                && State() == old(State()).(
                     hasInfected := old(hasInfected) || hit,
                     computers := if hit then old(computers[..])[e.target := true] else old(computers[..]),
                     percentNext := old(percentNext) + 1 + n)
                && q.Elements() == old(q.Elements())
                     + (if seen then NotifyEvents(e.source, old(time)) + NotifyEvents(e.target, old(time)) else multiset{})
      ensures e.action == DEPLOY_ATTACK && old(CanLaunch(e.source)) ==>
                var k := FirstOther(nodeDraws, old(nodeNext), e.source).value;
                && q.Elements() == old(q.Elements())
                     + multiset{PriorityContainer(Event(EXECUTE_ATTACK, e.source, e.target), old(time) + 100)}
                     + multiset{PriorityContainer(Event(DEPLOY_ATTACK, e.source, nodeDraws[k]), old(time) + 1000)}
                && State() == old(State()).(nodeNext := k + 1)
      ensures e.action == DEPLOY_ATTACK && !old(CanLaunch(e.source)) ==>
                q.Elements() == old(q.Elements()) && State() == old(State())
      ensures e.action == EXECUTE_REPAIR ==>
                && State() == old(State()).(computers := old(computers[..])[e.target := false])
                && q.Elements() == old(q.Elements())
      ensures e.action == DEPLOY_REPAIR ==>
                && State() == old(State())
                && q.Elements() == old(q.Elements()) + multiset{PriorityContainer(Event(EXECUTE_REPAIR, -1, e.target), old(time) + 100)}
      ensures e.action == NOTIFY ==>
                && State() == old(State()).(nextFixTime := old(sysadmin.nextFixTime) + 10000)
                && q.Elements() == old(q.Elements())
                     + multiset{PriorityContainer(Event(DEPLOY_REPAIR, -1, e.source), old(sysadmin.nextFixTime) + 10000)}
    {
      if IsAttack(e) {
        ProcessAttackEvent(e);
      } else {
        ProcessDefenceEvent(e);
      }
    }

    /** One iteration of run: fetch, then process the event fetched. The
        invariants hold across it, infection is never forgotten, and the
        sysadmin's fix slot only moves later. */
    method Step() returns (outcome: StepOutcome)
      requires Valid()
      modifies this, q, q.contents, computers
      ensures Valid() && (q.contents == old(q.contents) || fresh(q.contents))
      ensures outcome.Ended? && outcome.condition != TimedOut ==> old(PreCheck()) == Some(outcome.condition)
      ensures old(PreCheck()).Some? ==> outcome == Ended(old(PreCheck()).value)
      ensures outcome == Ended(NetworkDefended) ==> hasInfected && Count(computers[..]) == 0
      ensures outcome == Ended(NetworkConquered) ==> Count(computers[..]) > (numComputers + 1) / 2
      ensures old(hasInfected) ==> hasInfected
      ensures sysadmin.nextFixTime >= old(sysadmin.nextFixTime)
      ensures old(Harmless()) ==> Harmless()
      ensures old(AttacksFromOutside()) ==> AttacksFromOutside()
      ensures old(QuietDefender()) ==> QuietDefender()
      ensures old(QuietDefender()) && detectProbability <= 0 ==> sysadmin.nextFixTime == old(sysadmin.nextFixTime)
      ensures outcome.Ended? && outcome.condition != TimedOut ==> PreCheck() == Some(outcome.condition)
      ensures outcome == Ended(TimedOut) ==> time > MaxTime
      ensures outcome.Processed? ==>
                old(PreCheck()).None? && outcome.event == old(q.contents[0]).content && old(q.contents[0]).priority <= MaxTime
    {
      var fetched := Fetch();
      if fetched.Failure? {
        return Ended(fetched.error);
      }
      var e := fetched.value;
      if !DrawsSuffice(e) {
        return OutOfDraws(e);
      }
      Process(e);
      outcome := Processed(e);
    }

    /** run, bounded by fuel: steps until an end condition, the draws run
        out, or the fuel is spent. */
    method Run(fuel: nat) returns (r: RunResult)
      requires Valid()
      modifies this, q, q.contents, computers
      ensures Valid()
      ensures r == Finished(NetworkDefended) ==> hasInfected && Count(computers[..]) == 0
      ensures r == Finished(NetworkConquered) ==> Count(computers[..]) > (numComputers + 1) / 2
      ensures old(hasInfected) ==> hasInfected
      ensures sysadmin.nextFixTime >= old(sysadmin.nextFixTime)
      ensures old(Harmless()) ==> Harmless()
      ensures old(AttacksFromOutside()) ==> AttacksFromOutside()
      ensures old(QuietDefender()) ==> QuietDefender()
      ensures old(QuietDefender()) && detectProbability <= 0 ==> sysadmin.nextFixTime == old(sysadmin.nextFixTime)
      ensures fuel > 0 && old(PreCheck()).Some? ==> r == Finished(old(PreCheck()).value)
      ensures r.Finished? && r.condition != TimedOut ==> PreCheck() == Some(r.condition)
      ensures r == Finished(TimedOut) ==> time > MaxTime
    {
      var remaining := fuel;
      while remaining > 0
        invariant Valid() && (q.contents == old(q.contents) || fresh(q.contents))
        invariant remaining == fuel ==> PreCheck() == old(PreCheck())
        invariant remaining < fuel ==> old(PreCheck()).None?
        invariant old(hasInfected) ==> hasInfected
        invariant sysadmin.nextFixTime >= old(sysadmin.nextFixTime)
        invariant old(Harmless()) ==> Harmless()
        invariant old(AttacksFromOutside()) ==> AttacksFromOutside()
        invariant old(QuietDefender()) ==> QuietDefender()
        invariant old(QuietDefender()) && detectProbability <= 0 ==> sysadmin.nextFixTime == old(sysadmin.nextFixTime)
        decreases remaining
      {
        var outcome := Step();
        if outcome.Ended? {
          return Finished(outcome.condition);
        } else if outcome.OutOfDraws? {
          return DrawsExhausted;
        }
        remaining := remaining - 1;
      }
      r := FuelSpent;
    }
  }

  /** A whole simulation, bounded by fuel: construct, then run. With
      attackProbability 0 no computer is ever infected, with
      detectProbability 0 the sysadmin's fix slot never moves, and each end
      condition reported holds of the final state: the defender wins only
      with every computer clean after an infection, the attacker only with
      more than half infected, QUEUE_EMPTY only with nothing queued, and a
      timeout only with the clock past maxTime. Conquest and defence are
      only reported while events are still queued. */
  method Simulate(numComputers: int, attackProbability: int, detectProbability: int,
                  nextFixTime: int, percentDraws: seq<int>, nodeDraws: seq<int>, fuel: nat)
    returns (r: RunResult, infected: int, everInfected: bool, lastFixTime: int, clock: int, drained: bool)
    requires numComputers > 0
    requires DrawsInRange(numComputers, percentDraws, nodeDraws) && |nodeDraws| > 0
    ensures attackProbability <= 0 ==> infected == 0 && !everInfected
    ensures detectProbability <= 0 ==> lastFixTime == nextFixTime
    ensures lastFixTime >= nextFixTime
    ensures r == Finished(NetworkDefended) ==> everInfected && infected == 0
    ensures r == Finished(NetworkConquered) ==> infected > (numComputers + 1) / 2
    ensures r == Finished(QueueEmpty) ==> drained
    ensures r == Finished(NetworkConquered) || r == Finished(NetworkDefended) ==> !drained
    ensures r == Finished(TimedOut) ==> clock > MaxTime
  {
    var sim := new Simulator(numComputers, attackProbability, detectProbability, nextFixTime, percentDraws, nodeDraws);
    r := sim.Run(fuel);
    infected := sim.ComputersInfected();
    everInfected := sim.hasInfected;
    lastFixTime := sim.sysadmin.nextFixTime;
    clock := sim.time;
    drained := sim.q.IsEmpty();
  }
}

=== FILE: wrappers.dfy ===
/** Failure-carrying results, used for the heap's error codes and for
    operations that may find nothing. */
module Wrappers {

  datatype Option<T> = None | Some(value: T)

  datatype Result<T, E> = Success(value: T) | Failure(error: E)
}
